=== FILE: README.md ===
# BookWise library platform — a Dafny model

BookWise is a university library web application. Students sign up, wait for an
admin to approve their account, then borrow books. Admins manage the catalogue, the
user accounts and the borrow records. This project models the application's
decision-making core as pure Dafny functions over immutable data, and proves
properties of that model:

- the data model: users, books and borrow records, with their enums and column
  defaults;
- the borrow action, with its ordered guards, the insert, the copy-count decrement,
  and an invariant that balances the copy counts;
- the admin listings: search, sort-key fallback and pagination arithmetic;
- the role change and account-status update, each guarded by an ordered chain of
  checks;
- the read-side derivation of a loan's displayed status (borrowed, returned,
  overdue);
- the email workflows after a return and after sign-up, recorded as ordered step
  lists;
- sign-in eligibility and the token and session callbacks;
- the small client-side pieces: initials, sidebar highlighting, the search query
  parameter, the role toggle, and the borrow-status menu.

The database is a `Store` with one sequence of rows per table, in insertion order. A
`.limit(1)` lookup is the first matching row. The invariant `Ledger.Consistent`
covers:

- unique keys;
- resolving foreign keys;
- `returnDate` being set exactly on RETURNED records;
- at most one active loan per user and book;
- `availableCopies == totalCopies − active loans ≥ 0` for every book.

Timestamps are milliseconds (`Millis`). Date columns are UTC day numbers (`Day`).
A date column read back as a JavaScript `Date` is midnight UTC of its day
(`StartOfDay`).

The server clock, the ids the database draws, the bcrypt comparison, and the
replies of server actions called from client components are all parameters.

Modules, one per source file or concern:

- `Outcomes`: `Option` and `Result`.
- `Seqs`: filter, first match, stable descending sort, window.
- `Text`: ASCII case mapping, `includes`, `split`.
- `Schema`: the tables, enums and defaults.
- `Ledger`: the store invariant.
- `BookActions`: `borrowBook`, `getBorrowedBooks`.
- `Listing`: page offset and page count.
- `AdminBook`: `createBook`, `getBooks`.
- `AdminUser`: `getUsers`, `updateAccountStatus`, `changeUserRole`, `getUserById`.
- `BorrowRecordsPage`: `getActualStatus`, the newest-first sort.
- `Workflow`: workflow steps.
- `ReturnBook`: the return workflow.
- `Onboarding`: the sign-up workflow.
- `Auth`: `authorize`, `jwt`, `session`.
- `Utils`: `getInitials`.
- `ClientReplies`: server-action replies and toasts.
- `UserInfoDisplay`, `BorrowStatusMenu`, `Sidebar`, `Search`: the client components.

`getActualStatus` compares `new Date(dueDate)`, which is midnight UTC of the due
day, with the current instant. So a BORROWED loan shows as overdue from the first
instant after that midnight, that is, throughout its due day
(`BorrowRecordsPage.Derive`, `BorrowRecordsPage.OverdueOnDueDay`).

## Model

| member | source | states |
|---|---|---|
| Schema.NewUser | database/schema.ts:37-50 | A new user row has status PENDING, role USER, last activity on the day of `now`, and is created at `now`. |
| Schema.InsertUser | database/schema.ts:37-41 | The insert fails exactly when fullName is longer than the 255 characters of its `varchar(255)`, universityId is outside the 32-bit `integer` range, or the new row repeats an existing id, email or universityId. Otherwise the row is appended and the users table keeps its unique keys. |
| Schema.NewBorrowRecord | database/schema.ts:68-83 | A new borrow record has status BORROWED and no return date, and was borrowed and created at `now`. |
| Schema.StoredStatusNeverOverdue | database/schema.ts:18-21 | A stored borrow status reads "BORROWED" or "RETURNED", never "OVERDUE". |
| Ledger.CopiesWithinBounds | lib/actions/book.ts:54-75 | In a consistent store, every book has between 0 and totalCopies copies available. |
| Ledger.LookupIsUnique | database/schema.ts:53 | With unique book ids, the `.limit(1)` lookup by id returns the one row with that id. |
| BookActions.SetAvailableCopies | lib/actions/book.ts:70-75 | Only rows with the given id get the new `availableCopies`; all other rows and fields stay the same. |
| BookActions.BorrowBook | lib/actions/book.ts:22-98 | The checks run in order. An existing BORROWED record for this user and book gives "already borrowed" with no change, before the availability check. A missing book or no copies left gives "not available" with no change. A rejected insert gives the generic error with no change. The store changes iff both guards pass and the insert is accepted, whether or not the trigger then succeeds. A changed store is exactly the old one with the new record appended (BORROWED, no return date, due on the day of `now` + 7) and that book's copies set to the value read minus one. Success holds iff the store changed and the trigger succeeded; a changed store with an error means the trigger failed. |
| BookActions.BorrowPreservesConsistency | lib/actions/book.ts:27-75 | Borrowing keeps the store consistent: the copy counts still balance the active loans and stay non-negative, and keys and references still hold. |
| BookActions.BorrowTwiceRejected | lib/actions/book.ts:27-44 | After a successful borrow, the same user borrowing the same book again gets "already borrowed" and the store is unchanged. |
| BookActions.ReturnedLoansDoNotBlock | lib/actions/book.ts:30-36 | A user whose only records for the book are RETURNED may borrow it again when a copy is free. |
| BookActions.LastCopyLent | lib/actions/book.ts:46-59 | When the last copy has been lent, any further borrow of that book fails and changes nothing. |
| BookActions.JoinBooks | lib/actions/book.ts:109-111 | The joined rows' records are exactly the records that have both a book row and a user row, in order and with their multiplicity. Each row carries the book row that the lookup by the record's book id returns. |
| BookActions.GetBorrowedBooks | lib/actions/book.ts:100-126 | Each record of the user whose book row exists appears exactly as many times as it is stored, provided the user row exists; no other record appears. Each row carries the book row looked up by the record's book id. Rows are ordered by borrowDate, newest first. |
| Listing.TotalPages | lib/admin/book.ts:71 | The page count is the least n with n·20 ≥ count, i.e. the ceiling of count/20. |
| Listing.Metadata | lib/admin/book.ts:71-72 | totalPages is that ceiling, and hasNextPage holds iff page < totalPages. |
| Listing.PageOf | lib/admin/book.ts:61-62 | The page is defined iff the limit and the offset (page−1)·limit are non-negative. It then holds the consecutive rows of the ordered result starting at the offset: all that remain, but at most `limit`. |
| Listing.PageOfSorted | lib/admin/book.ts:60-62 | A page of a result ordered by a key is itself ordered by that key. |
| Listing.NextPageHiddenWithSmallLimit | lib/admin/user.ts:56-57 | With 10 rows and limit 6, hasNextPage is false on page 1 although page 2 holds 4 rows. |
| Listing.PagesForLimit | lib/admin/user.ts:56 | The corrected page count is the least n with n·limit ≥ count. |
| Listing.CorrectedNextPageMeansMoreItems | lib/admin/user.ts:56-57 | With the corrected count, hasNextPage holds iff the next page is non-empty, for every limit > 0. |
| Listing.CorrectedAgreesAtDefaultLimit | lib/admin/book.ts:7 | At the default limit of 20, the corrected and written metadata coincide. |
| AdminBook.CreateBook | lib/admin/book.ts:9-30 | Creation fails exactly when the id is already taken, the title or author is longer than 255 characters, or the rating or copy count is outside the 32-bit `integer` range. Nothing is checked before the insert, so these are the database's rejections (database/schema.ts:54-61). The new book has availableCopies == totalCopies == the requested count and the given fields, and is appended to the books table. |
| AdminBook.CreateBookPreservesConsistency | lib/admin/book.ts:11-17 | Creating a book with a non-negative copy count keeps the store consistent. |
| AdminBook.BookOrderFor | lib/admin/book.ts:47-54 | "oldest", "highestRated" and "available" select their orders. Every other key falls back to newest first. |
| AdminBook.OrderedMatches | lib/admin/book.ts:39-60 | The ordered rows are exactly the matching books, as a multiset (so as many as there are matches), sorted by the chosen key in descending order. |
| AdminBook.GetBooks | lib/admin/book.ts:32-89 | The call succeeds iff the limit and offset are non-negative. The rows are the ordered matching books from the offset on, position by position, and there are as many as remain after the offset, but at most `limit`. totalPages and hasNextPage are computed from the number of matches with the constant 20. |
| AdminBook.NoQueryMatchesAll | lib/admin/book.ts:39-45 | An absent or empty query lists every book. |
| AdminBook.TitleSearchFindsBook | lib/admin/book.ts:40-41 | Searching for a book's own title finds it. |
| AdminUser.UserOrderFor | lib/admin/user.ts:26-31 | Only "oldest" orders oldest first. Every other key, including the default "available", falls back to newest first. |
| AdminUser.UserRows | lib/admin/user.ts:33-44 | The rows' users are exactly the matching users, one row each, in table order. Each row carries that user's number of borrow records. |
| AdminUser.OrderedUsers | lib/admin/user.ts:33-45 | The ordered rows are a reordering of the user rows, so each matching user appears exactly once, sorted by the chosen key in descending order. |
| AdminUser.GetUsers | lib/admin/user.ts:12-74 | The call succeeds iff the limit and offset are non-negative. The rows are the ordered user rows from the offset (page−1)·limit on, position by position, and there are as many as remain after the offset, but at most `limit`. Each is a matching user with their loan count. The metadata is computed from the number of matches with the constant 20. |
| AdminUser.UpdateAccountStatus | lib/admin/user.ts:76-98 | Only the rows with the given id get the new status, and nothing else changes. The returned rows are exactly the updated table's rows with that id, in table order, one per stored row with the id, so there are some iff the user exists. |
| AdminUser.ChangeUserRole | lib/admin/user.ts:100-186 | The checks run in order: no session id gives "Authentication required"; an acting user whose stored role is not ADMIN gives unauthorized; acting on one's own id is rejected; an unknown target gives "User not found". Every error leaves the store unchanged. On success only the target's role becomes the new role. |
| AdminUser.RoleChangePreservesConsistency | lib/admin/user.ts:157-168 | A role change keeps the store consistent. |
| AdminUser.OtherRowsKeepAdmin | lib/admin/user.ts:115-128 | Rewriting rows other than the acting admin's, without changing any id, keeps that admin's stored ADMIN role visible to the admin check. |
| AdminUser.RoleChangeRoundTrip | lib/admin/user.ts:139-168 | Changing a user's role and then changing it back to the old role restores the store exactly. |
| AdminUser.RecentRecords | lib/admin/user.ts:220-224 | The history holds min(loans, 10) of the user's own records, newest borrowDate first, each at most as often as it is stored. Any record of the user that is left out is no newer than the last one shown, and records are left out only when 10 are shown. |
| AdminUser.GetUserById | lib/admin/user.ts:188-240 | The call fails iff no user has the id. Otherwise it returns that user, the user's number of loans, and one history row for each record that `RecentRecords` selects, in that order. |
| BorrowRecordsPage.Derive | app/admin/borrow-records/page.tsx:21-34 | RETURNED derives "returned" whatever the dates. BORROWED derives "overdue" iff now is after midnight UTC of the due day, and "borrowed" otherwise. |
| BorrowRecordsPage.OverdueIsPermanent | app/admin/borrow-records/page.tsx:26-31 | An overdue loan stays overdue as time passes. |
| BorrowRecordsPage.ReturnedIgnoresDates | app/admin/borrow-records/page.tsx:22-24 | A returned loan shows as returned at every instant. |
| BorrowRecordsPage.LoanTimeline | app/admin/borrow-records/page.tsx:21-34 | A fresh seven-day loan shows as borrowed until midnight UTC of its due day and as overdue after it, which is more than six days after borrowing. |
| BorrowRecordsPage.OverdueOnDueDay | app/admin/borrow-records/page.tsx:27-29 | During the due day itself, after its first instant, a BORROWED loan already shows as overdue. |
| BorrowRecordsPage.DisplayOrder | app/admin/borrow-records/page.tsx:74-79 | The displayed rows are a permutation of the fetched rows, with borrowDate non-increasing. |
| ReturnBook.DaysLate | app/api/workflow/return-book/route.ts:48-51 | When not late the result is 0. When late it is the number of whole days between due and return. |
| ReturnBook.DaysLateBetweenDates | app/api/workflow/return-book/route.ts:48-51 | For two calendar dates, the days late are their difference when the return day is later, and 0 otherwise. |
| ReturnBook.ReturnSteps | app/api/workflow/return-book/route.ts:47-85 | The confirmation comes first. A late return sends exactly two emails: the confirmation, then after a one-hour sleep the late-fee notice. An on-time return consists of the confirmation alone. A late-fee notice appears iff the return is late, and every email goes to the given address. |
| ReturnBook.ReturnWorkflow | app/api/workflow/return-book/route.ts:16-45 | The handler runs no step at all iff the user or the book is missing, since destructuring the missing row throws. Otherwise the steps are exactly `ReturnSteps` for the stored email of a user with that id, the stored title of a book with that id, and the given return and due dates. So there is one email, or two when late, each to the borrower's stored address. |
| ReturnBook.ConfirmationVariant | app/api/workflow/return-book/route.ts:58-64 | The confirmation is the late-return variant iff the return is late. |
| Onboarding.StateForElapsed | app/api/workflow/onboarding/route.ts:68-74 | "non-active" iff more than three and at most thirty days have elapsed. |
| Onboarding.GetUserState | app/api/workflow/onboarding/route.ts:57-75 | An unknown email is "non-active". Otherwise the state is decided by the time since midnight UTC of the user's last activity day. |
| Onboarding.StateWindows | app/api/workflow/onboarding/route.ts:14-16 | The non-active window is non-empty: 4 days is non-active, while 1 day and 365 days are active. |
| Onboarding.ActiveToday | app/api/workflow/onboarding/route.ts:66-74 | A user active today is "active". |
| Onboarding.StateEmail | app/api/workflow/onboarding/route.ts:98-114 | The iteration's email goes to the user and is the miss-you email iff the state is "non-active". |
| Onboarding.OneIterationEmails | app/api/workflow/onboarding/route.ts:93-116 | One loop iteration sends exactly one email. |
| Onboarding.Iterations | app/api/workflow/onboarding/route.ts:92-117 | n iterations are 3n steps and send exactly the n state emails in order. |
| Onboarding.IterationLayout | app/api/workflow/onboarding/route.ts:93-116 | Iteration i checks the state, then sends that state's email, then sleeps thirty days. |
| Onboarding.OnboardingSteps | app/api/workflow/onboarding/route.ts:82-117 | The welcome email and the three-day sleep come first, before any state check. The emails are the welcome email followed by one email per iteration. |
| Auth.Authorize | auth.ts:41-76 | Sign-in needs both fields filled, a user with that email, a matching password and status APPROVED. Any failed step gives no user. On success the result carries the stored id, email, fullName as name, and role. |
| Auth.OnlyApprovedSignIn | auth.ts:65-68 | Whoever signs in is a stored user with status APPROVED. |
| Auth.Jwt | auth.ts:83-90 | Without a user the token is unchanged. With one, the token takes its id and name, and its role defaults to USER. |
| Auth.SessionFromToken | auth.ts:91-98 | The session user takes id, name and role from the token and keeps their email. Without a session user nothing is added. |
| Auth.SignInReachesSession | auth.ts:70-98 | After sign-in, the session carries the stored user's id, name and role, with USER for a missing role. |
| Text.SplitJoin | lib/utils.ts:10 | Joining the pieces of `split(" ")` with the separator gives back the original string. |
| Utils.GetInitials | lib/utils.ts:8-14 | The initials have at most two characters and contain no lower-case ASCII letter. The empty name gives "". |
| Utils.HeadsAreWordStarts | lib/utils.ts:9-12 | The first characters of the `split(" ")` pieces are exactly the non-space characters that start the string or follow a space. The empty pieces from leading or repeated spaces contribute nothing. |
| Utils.InitialsOfWords | lib/utils.ts:8-14 | The initials are the first two word-start characters, upper-cased. |
| Utils.InitialsHaveNoSpace | lib/utils.ts:8-14 | No initial is a space. |
| Utils.InitialsExamples | lib/utils.ts:8-14 | "a b" and " a  b" both give "AB". |
| ClientReplies.MessageOr | components/UserInfoDisplay.tsx:156 | The toast shows the server's message, or the fallback when the message is absent or empty. |
| UserInfoDisplay.CurrentlyBorrowed | components/UserInfoDisplay.tsx:181-183 | A row is listed iff its status reads BORROWED or OVERDUE, and each such row as many times as it occurs, so the counter is the number of such rows. |
| UserInfoDisplay.OverdueBooks | components/UserInfoDisplay.tsx:184-186 | A row is listed iff its status reads OVERDUE, and each such row as many times as it occurs. |
| UserInfoDisplay.OverdueWithinCurrent | components/UserInfoDisplay.tsx:181-186 | Every overdue row is also currently borrowed, so the overdue counter never exceeds the borrowed counter. |
| UserInfoDisplay.StoredHistoryShowsNoOverdue | components/UserInfoDisplay.tsx:184-186 | For any history the detail page produces, the overdue counter is empty, even for a loan past its due day that the borrow-records page shows as overdue. |
| UserInfoDisplay.OverdueLoans | components/UserInfoDisplay.tsx:184-186 | Corrected counter: a loan is listed iff it is still BORROWED and now is after midnight UTC of its due day, and each such loan as many times as it occurs. |
| UserInfoDisplay.OverdueLoansAreCurrent | components/UserInfoDisplay.tsx:181-186 | Every loan the corrected counter lists is a currently-borrowed row, and every past-due BORROWED loan is listed. |
| UserInfoDisplay.InitialRoleItem | components/UserInfoDisplay.tsx:79 | The initial item is "ADMIN" iff the role is ADMIN, and "USER" otherwise. |
| UserInfoDisplay.ToggleTarget | components/UserInfoDisplay.tsx:238-240 | The toggle asks for one of the two menu values, and always for the one the menu does not show initially. |
| UserInfoDisplay.HandleRoleChange | components/UserInfoDisplay.tsx:121-169 | Requesting the active value does nothing. Without an ADMIN session role the result is "Permission Denied" with no server call. The server is called iff the value differs and the session is ADMIN, and it receives the value upper-cased. The active item changes only on a successful reply, and then to the value. A refusal always shows "Failed to change user role.", because the toast reads `message` and a refusal carries only `error`. |
| UserInfoDisplay.RoleReplyOf | lib/admin/user.ts:100-186 | The client sees success iff the server action succeeded, and a refusal carries exactly the action's `error` text for its reason. |
| UserInfoDisplay.RoleErrorNeverShown | components/UserInfoDisplay.tsx:153-158 | For every refusal of `changeUserRole`, the admin's toast differs from the server's error text, so "User not found" and the other reasons are never shown. |
| UserInfoDisplay.HandleRoleChangeShowingError | components/UserInfoDisplay.tsx:153-158 | Corrected handler: a refusal with a non-empty `error` shows that text. Otherwise it agrees with `HandleRoleChange`. In particular the request sent, the active item, and every toast's title and destructive flag are the same. |
| UserInfoDisplay.CorrectedRoleErrorShown | lib/admin/user.ts:107-154 | With the correction, every refusal of the server action reaches the admin with its own error text. |
| UserInfoDisplay.ToggleRequestsOtherRole | components/UserInfoDisplay.tsx:137-145 | An admin pressing the toggle on a freshly loaded card sends the other role, spelled "USER" or "ADMIN". |
| UserInfoDisplay.SecondToggleIgnored | components/UserInfoDisplay.tsx:238-240 | If the page is not re-rendered after a successful toggle, the button asks for the same value again, which is now active, so the second press does nothing. |
| UserInfoDisplay.RefreshedToggleSendsAgain | components/UserInfoDisplay.tsx:81-239 | If the page is re-rendered with the stored role after a successful toggle, the active item survives. The button then asks for the role the page was first loaded with, and the second press sends it. The active item becomes that role only on a successful reply. |
| BorrowStatusMenu.StatusColors | components/admin/BorrowStatus.tsx:44-55 | The text is always white. Blue, green and red go exactly to "borrowed", "returned" and "overdue" in any case; gray goes to everything else. |
| BorrowStatusMenu.ColorsIgnoreCase | components/admin/BorrowStatus.tsx:45 | A value and its upper-cased spelling get the same colours. |
| BorrowStatusMenu.DisplayStatusColors | components/admin/BorrowStatus.tsx:44-55 | The derived statuses borrowed, returned and overdue get blue, green and red. |
| BorrowStatusMenu.HandleItemClick | components/admin/BorrowStatus.tsx:57-95 | Clicking the active value does nothing. Otherwise the upper-cased value is sent. The active item changes only on success, and then to the value. On success exactly one of notifying the parent (iff a callback was given) or refreshing the route runs. |
| BorrowStatusMenu.RepeatClickIgnored | components/admin/BorrowStatus.tsx:58 | After a successful change, clicking the same value again does nothing. |
| BorrowStatusMenu.ActiveMenuItem | components/admin/BorrowStatus.tsx:97-98 | The shown item is an item whose value is the active one when one exists. Otherwise it is the first item, and there is none only when the list is empty. |
| BorrowStatusMenu.ActiveItemIsFirstMatch | components/admin/BorrowStatus.tsx:97-98 | When several items match, the shown item is the first of them. |
| Sidebar.ExactMatchSelects | components/admin/Sidebar.tsx:31 | A link is highlighted on its own route. |
| Sidebar.AdminHomeOnlyExact | components/admin/Sidebar.tsx:27-31 | The "/admin" link is highlighted iff the pathname is exactly "/admin". |
| Sidebar.ShortRouteOnlyExact | components/admin/Sidebar.tsx:27-31 | A route of at most one character is highlighted iff the pathname equals it. |
| Sidebar.OccurrenceSelects | components/admin/Sidebar.tsx:28-30 | Any other route longer than one character is highlighted wherever it occurs in the pathname. |
| Sidebar.NotAPrefixTest | components/admin/Sidebar.tsx:28-30 | "/admin/books" is highlighted on "/admin/users/admin/books", which it does not prefix. |
| Sidebar.IsSelected | components/admin/Sidebar.tsx:27-31 | A link is highlighted iff the pathname equals its route, or the route is not "/admin", is longer than one character, and occurs somewhere in the pathname. |
| Search.Get | components/Search.tsx:13 | `get` finds a value iff some pair has the name. The value is that of the first pair with the name. |
| Search.SetParam | components/Search.tsx:20 | After `set`, `get` returns the new value and exactly one pair has the name. All other pairs are kept, in order. |
| Search.DeleteParam | components/Search.tsx:22 | After `delete` no pair has the name, and every other pair is kept. |
| Search.SetParamIdempotent | components/Search.tsx:19-20 | Setting the same value twice is the same as setting it once. |
| Search.UpdateQuery | components/Search.tsx:16-27 | A non-empty search that differs from the initial one sets `query` to it. An empty search removes `query`. An unchanged non-empty search leaves the parameters as they were. All other parameters are carried over. The router is pushed iff the search differs from the initial one. |
| Search.NavigationSettles | components/Search.tsx:25-31 | After a navigation, the page's initial search is the typed text, so the same text does not navigate again. |

## Left out

- Database I/O is left out. Drizzle queries become functions over sequences. The generic `catch` branch of each server action is modelled only where an insert can be rejected (`borrowBook`, `createBook`). Connection failures are not modelled.
- Utils.GetInitials, BorrowStatusMenu.StatusColors, BorrowStatusMenu.HandleItemClick, UserInfoDisplay.HandleRoleChange: `Text.ToUpper` and `Text.ToLower` map the ASCII letters only, and strings are sequences of characters rather than UTF-16 code units. JavaScript's `toUpperCase` and `toLowerCase` map every Unicode letter, so "émile zola" has the initials "ÉZ" in the source and "éZ" in the model. Likewise `part[0]` and `.slice(0, 2)` index characters here and UTF-16 units in the source.
- SQL `ilike` is modelled as case-insensitive containment over ASCII letters. `%` and `_` inside the query are taken literally, and Unicode case folding is left out.
- BookActions.BorrowBook: the decrement writes back the value read before the insert. With concurrent requests that read-then-write can lose an update, and a sequential model cannot express it. The contract assumes the requests run one at a time.
- BookActions.BorrowBook: the success `data` is the driver's report of the insert, which has no `.returning()`. The model keeps it opaque (`InsertReport`), so no contract speaks of its fields. What was inserted is stated about the store.
- BookActions.BorrowBook: the workflow trigger is a boolean parameter. A failed trigger returns the error after the insert and decrement have already happened. The model keeps the changed store and claims no rollback.
- Notification transport is left out: `workflowClient.trigger`, QStash, the nodemailer routes, and the timing of `context.run` and `context.sleep`. Emails are recorded as ordered steps.
- Onboarding.OnboardingSteps: the onboarding loop never ends. The model covers the steps of a finite sequence of iterations, given the states read in each.
- Password hashing is left out: bcrypt `compare` is the parameter `passwordMatches`.
- Dates assume UTC: `dayjs` local time, daylight-saving shifts, `toDateString` and locale formatting (`formatDate`) are left out. The due date is the UTC day of `now` plus seven.
- `getBorrowRecords`, `returnBook`, `updateBorrowStatus` and `deleteBook` are called by the pages but are not part of this model. Their copy-count and return-date rules are unknown. Their replies enter the client components only as parameters (`ClientReplies.ServerReply`).
- The fine and payment tables are not modelled: they only have a schema and no logic. The library-settings defaults (100, 5000, 0, 1) and the book column defaults (1 total and 0 available copies) are kept as constants only, because `createBook` always supplies both copy counts.
- Email templates and the purely presentational components are left out: BookForm, AllBooksClient, Menu, Header, AdminHeader, BookCard, BookStripe, UserCard, AccountRequests (apart from its `limit: 6`), the admin layout and pages, the 404 page, and BorrowBook, whose handler is empty.
- Toasts are recorded as title, description and a destructive flag. `revalidatePath` is left out.
- UserInfoDisplay.SecondToggleIgnored: the lemma assumes the detail page keeps its `user.role` prop after a successful change. `changeUserRole` calls `revalidatePath` (lib/admin/user.ts:171-172), and Next.js may then re-render the server page with the new role. Which of the two happens depends on the framework's revalidation and is not modelled. `UserInfoDisplay.RefreshedToggleSendsAgain` states the other case: a re-rendered page makes the second press send a request.
- AdminBook.CreateBook, Schema.InsertUser: the rows model only the columns the logic reads. Cover URL and colour, description, video URL, summary and university card are not modelled. So the rejection of a `coverColor` longer than the 7 characters of its `varchar(7)` (database/schema.ts:59) is not part of the contract.
- The sort-key lookup is taken as a plain map. JavaScript prototype keys such as "constructor" would be truthy in the source's object lookup, and the model does not reproduce that.
- `UserInfoDisplay` receives `role` and `status` already defaulted by the detail page, so the toggle functions take the role as text.
- AdminBook.GetBooks: `ORDER BY` a single column leaves the database free to order books with equal keys as it likes. Under the default sort "available" (lib/admin/book.ts:34 and 51) many books share a `totalCopies` value. The model takes the stable sort of insertion order among equal keys, so the positional clause fixes an order the source does not promise. Only the multiset of matches, their count and the key order are promised by the source.
- AdminUser.GetUsers: the `groupBy` left join is modelled as one row per matching user carrying that user's loan count. The database's row order among users with equal `createdAt` is not modelled: the model takes the stable sort of insertion order.

## Findings

| source | as written | input that shows it | evidently intended | confidence | as-written member | corrected member |
|---|---|---|---|---|---|---|
| components/UserInfoDisplay.tsx:184-186 | The "Overdue Books" counter keeps rows whose stored status reads "OVERDUE". The borrow status enum has only BORROWED and RETURNED (database/schema.ts:18-21), and the detail page passes the stored status through. | A user with one BORROWED loan whose due day has passed: the borrow-records page shows it as overdue, but this counter shows 0. | Count the loans that are overdue by the same derivation as the borrow-records page: still BORROWED, and now after the due day's midnight. | high; not executed | UserInfoDisplay.StoredHistoryShowsNoOverdue | UserInfoDisplay.OverdueLoans |
| lib/admin/user.ts:56-57 | `totalPages` divides the match count by the constant 20 whatever `limit` the caller passes. The same holds in lib/admin/book.ts:71. | `getUsers` with `limit: 6`, as components/admin/home/AccountRequests.tsx:11 calls it, and 10 users: page 1 shows 6, `hasNextPage` is false, yet page 2 holds 4 users. | Divide by the requested `limit`, so that `hasNextPage` means the next page is non-empty. | medium; not executed | Listing.NextPageHiddenWithSmallLimit | Listing.CorrectedNextPageMeansMoreItems |
| components/UserInfoDisplay.tsx:156 | On a refusal the toast shows `result.message`, falling back to "Failed to change user role.". Every failure return of `changeUserRole` (lib/admin/user.ts:108-153) sets `error` and never `message`. | An admin toggles the role of a user deleted since the page loaded: the server answers `error: "User not found"`, and the toast says "Failed to change user role.". | Show `result.error`, as the borrow-status menu does with its action's reply (components/admin/BorrowStatus.tsx:82). | high; not executed | UserInfoDisplay.RoleErrorNeverShown | UserInfoDisplay.CorrectedRoleErrorShown |

The listing actions `AdminBook.GetBooks` and `AdminUser.GetUsers` keep the written
metadata, because they model the code.
`Listing.CorrectedAgreesAtDefaultLimit` shows that the two definitions agree at the
default limit, which is the only limit the admin pages pass to `getBooks`.

=== FILE: admin_book.dfy ===
/** The admin book actions: creating a book and the searchable, sortable,
    paginated book listing. */
module AdminBook {
  import opened Outcomes
  import Seqs
  import opened Text
  import opened Schema
  import opened Ledger
  import Listing

  /** The fields an admin submits for a new book. */
  datatype BookParams = BookParams(title: string, author: string, genre: string, rating: int, totalCopies: int)

  /** `createBook`: insert the book with every copy available. Nothing is
      checked before the insert, so a value too large for its column or a
      clash on the drawn id makes the insert raise, reported as "Error
      creating book". */
  function CreateBook(s: Store, p: BookParams, newId: Uuid, now: Millis): (r: Result<(Store, Book), string>)
    ensures r.Err? <==> HasBook(s.books, newId) || |p.title| > 255 || |p.author| > 255 || !IsInt4(p.rating) || !IsInt4(p.totalCopies)
    ensures r.Ok? ==>
      var (s', b) := r.value;
      && b.availableCopies == b.totalCopies == p.totalCopies
      && b.id == newId && b.title == p.title && b.author == p.author && b.genre == p.genre && b.rating == p.rating
      && s' == s.(books := s.books + [b])
  {
    var b := Book(newId, p.title, p.author, p.genre, p.rating, p.totalCopies, p.totalCopies, now);
    if !BookFits(b) || HasBook(s.books, newId) then Err("Error creating book")
    else Ok((s.(books := s.books + [b]), b))
  }

  /** Creating a book with a non-negative number of copies keeps the store
      consistent: the new book has no loans, and all its copies are
      available. */
  lemma {:induction false} CreateBookPreservesConsistency(s: Store, p: BookParams, newId: Uuid, now: Millis)
    requires Consistent(s) && p.totalCopies >= 0
    ensures CreateBook(s, p, newId, now).Ok? ==> Consistent(CreateBook(s, p, newId, now).value.0)
  {
    var r := CreateBook(s, p, newId, now);
    if r.Ok? {
      var (t, b) := r.value;
      assert UniqueBookIds(t.books) by {
        forall i, j | 0 <= i < j < |t.books| ensures t.books[i].id != t.books[j].id {
          if j == |s.books| {
            assert t.books[i] in s.books;
          }
        }
      }
      assert ReferencesResolve(t) by {
        forall x | x in t.records ensures HasBook(t.books, x.bookId) {
          var c :| c in s.books && c.id == x.bookId;
          assert c in t.books;
        }
      }
      assert ActiveBorrows(s.records, newId) == 0 by {
        Seqs.FilterNone(s.records, IsActiveBorrowOf(newId));
      }
      assert CopiesBalance(t) by {
        forall i | 0 <= i < |t.books|
          ensures t.books[i].availableCopies == t.books[i].totalCopies - ActiveBorrows(t.records, t.books[i].id)
          ensures t.books[i].availableCopies >= 0
        {
          if i < |s.books| {
            assert t.books[i] == s.books[i];
          }
        }
      }
    }
  }

  /** The optional parameters of a listing request. */
  datatype QueryParams = QueryParams(query: Option<string>, sort: Option<string>, page: Option<int>, limit: Option<int>)

  /** The default sort key and page of both listings. */
  const DEFAULT_SORT: string := "available"
  const DEFAULT_PAGE: int := 1

  datatype BookOrder = NewestFirst | OldestFirst | HighestRatedFirst | MostCopiesFirst

  /** The `sortOptions` lookup with its `createdAt desc` fallback. */
  function BookOrderFor(sort: string): (o: BookOrder)
    ensures sort == "oldest" <==> o == OldestFirst
    ensures sort == "highestRated" <==> o == HighestRatedFirst
    ensures sort == "available" <==> o == MostCopiesFirst
    ensures o == NewestFirst <==> sort !in {"oldest", "highestRated", "available"}
  {
    if sort == "newest" then NewestFirst
    else if sort == "oldest" then OldestFirst
    else if sort == "highestRated" then HighestRatedFirst
    else if sort == "available" then MostCopiesFirst
    else NewestFirst
  }

  /** The sort key: the listing puts the largest key first. */
  function BookKey(o: BookOrder): Book -> int {
    match o
    case NewestFirst => (b: Book) => b.createdAt
    case OldestFirst => (b: Book) => -b.createdAt
    case HighestRatedFirst => (b: Book) => b.rating
    case MostCopiesFirst => (b: Book) => b.totalCopies
  }

  /** The search condition: an absent or empty query matches every book;
      otherwise title, genre or author must contain it, ignoring case. */
  function BookMatches(query: Option<string>): Book -> bool {
    (b: Book) =>
      match query
      case None => true
      case Some(q) =>
        q == "" || ContainsIgnoreCase(b.title, q) || ContainsIgnoreCase(b.genre, q) || ContainsIgnoreCase(b.author, q)
  }

  /** Every matching book, in listing order. */
  function OrderedMatches(books: seq<Book>, query: Option<string>, o: BookOrder): (r: seq<Book>)
    ensures multiset(r) == multiset(Seqs.Filter(books, BookMatches(query)))
    ensures |r| == Seqs.Count(books, BookMatches(query))
    ensures Seqs.SortedDesc(r, BookKey(o))
  {
    Seqs.SortDescLength(Seqs.Filter(books, BookMatches(query)), BookKey(o));
    Seqs.SortDesc(Seqs.Filter(books, BookMatches(query)), BookKey(o))
  }

  datatype BookPage = BookPage(data: seq<Book>, meta: Listing.Meta)

  /** `getBooks`: filter, order, cut out the requested page and compute the
      metadata from the number of matches. */
  function GetBooks(books: seq<Book>, params: QueryParams): (r: Result<BookPage, string>)
    ensures var page := params.page.GetOr(DEFAULT_PAGE);
      var limit := params.limit.GetOr(Listing.ITEMS_PER_PAGE);
      r.Ok? <==> limit >= 0 && Listing.Offset(page, limit) >= 0
    ensures r.Ok? ==>
      var page := params.page.GetOr(DEFAULT_PAGE);
      var limit := params.limit.GetOr(Listing.ITEMS_PER_PAGE);
      var o := BookOrderFor(params.sort.GetOr(DEFAULT_SORT));
      var ordered := OrderedMatches(books, params.query, o);
      && |r.value.data| == Listing.PageLength(Seqs.Count(books, BookMatches(params.query)), Listing.Offset(page, limit), limit)
      && |r.value.data| <= limit
      && (forall i :: 0 <= i < |r.value.data| ==>
            Listing.Offset(page, limit) + i < |ordered| && r.value.data[i] == ordered[Listing.Offset(page, limit) + i])
      && (forall b :: b in r.value.data ==> b in books && BookMatches(params.query)(b))
      && Seqs.SortedDesc(r.value.data, BookKey(o))
      && r.value.meta == Listing.Metadata(Seqs.Count(books, BookMatches(params.query)), page)
  {
    var page := params.page.GetOr(DEFAULT_PAGE);
    var limit := params.limit.GetOr(Listing.ITEMS_PER_PAGE);
    var o := BookOrderFor(params.sort.GetOr(DEFAULT_SORT));
    var ordered := OrderedMatches(books, params.query, o);
    match Listing.PageOf(ordered, page, limit)
    case None => Err("An error occurred while fetching books")
    case Some(data) =>
      Listing.PageOfSorted(ordered, page, limit, BookKey(o));
      assert forall b :: b in data ==> b in ordered;
      assert forall b :: b in ordered ==> b in Seqs.Filter(books, BookMatches(params.query)) by {
        forall b | b in ordered ensures b in Seqs.Filter(books, BookMatches(params.query)) {
          assert b in multiset(ordered);
        }
      }
      Ok(BookPage(data, Listing.Metadata(Seqs.Count(books, BookMatches(params.query)), page)))
  }

  /** Without a query every book is listed (before paging). */
  lemma NoQueryMatchesAll(books: seq<Book>, o: BookOrder)
    ensures multiset(OrderedMatches(books, None, o)) == multiset(books)
    ensures multiset(OrderedMatches(books, Some(""), o)) == multiset(books)
  {
    assert Seqs.Filter(books, BookMatches(None)) == books by {
      Seqs.FilterCongruent(books, BookMatches(None), (b: Book) => true);
      FilterTrue(books);
    }
    assert Seqs.Filter(books, BookMatches(Some(""))) == books by {
      Seqs.FilterCongruent(books, BookMatches(Some("")), (b: Book) => true);
      FilterTrue(books);
    }
  }

  lemma {:induction false} FilterTrue(books: seq<Book>)
    ensures Seqs.Filter(books, (b: Book) => true) == books
  {
    if books != [] {
      FilterTrue(books[1..]);
      assert books == [books[0]] + books[1..];
    }
  }

  /** A book whose title is exactly the query is found. */
  lemma TitleSearchFindsBook(b: Book)
    ensures BookMatches(Some(b.title))(b)
  {
    ContainsSelf(ToLower(b.title));
  }
}

=== FILE: admin_user.dfy ===
/** The admin user actions: the user listing, account approval, role
    changes and the user detail view. */
module AdminUser {
  import opened Outcomes
  import Seqs
  import opened Text
  import opened Schema
  import opened Ledger
  import Listing
  import AdminBook

  /** A listing row: the user and how many borrow records they have (a left
      join counted per user, returned loans included). */
  datatype UserRow = UserRow(user: User, totalBorrowedBooks: nat)

  /** The number of borrow records of a user. */
  function LoansOf(records: seq<BorrowRecord>, userId: Uuid): nat {
    Seqs.Count(records, RecordOfUser(userId))
  }

  datatype UserOrder = NewestFirst | OldestFirst

  /** The user `sortOptions` only know "newest" and "oldest"; every other
      key, the default "available" included, falls back to newest first. */
  function UserOrderFor(sort: string): (o: UserOrder)
    ensures o == OldestFirst <==> sort == "oldest"
  {
    if sort == "newest" then NewestFirst
    else if sort == "oldest" then OldestFirst
    else NewestFirst
  }

  function UserKey(o: UserOrder): UserRow -> int {
    match o
    case NewestFirst => (r: UserRow) => r.user.createdAt
    case OldestFirst => (r: UserRow) => -r.user.createdAt
  }

  /** The search condition: full name or email contains the query, ignoring
      case; an absent or empty query matches everyone. */
  function UserMatches(query: Option<string>): User -> bool {
    (u: User) =>
      match query
      case None => true
      case Some(q) => q == "" || ContainsIgnoreCase(u.fullName, q) || ContainsIgnoreCase(u.email, q)
  }

  function RowUser(x: UserRow): User {
    x.user
  }

  /** Each matching user with their loan count, before ordering: one row
      per matching user row, in table order. */
  function UserRows(s: Store, query: Option<string>): (r: seq<UserRow>)
    ensures Seqs.Map(r, RowUser) == Seqs.Filter(s.users, UserMatches(query))
    ensures forall x :: x in r ==>
      x.user in s.users && UserMatches(query)(x.user) && x.totalBorrowedBooks == LoansOf(s.records, x.user.id)
    ensures |r| == Seqs.Count(s.users, UserMatches(query))
  {
    var matched := Seqs.Filter(s.users, UserMatches(query));
    seq(|matched|, i requires 0 <= i < |matched| => UserRow(matched[i], LoansOf(s.records, matched[i].id)))
  }

  /** Every matching user's row, in listing order: a reordering of the
      rows, so each matching user appears exactly once. */
  function OrderedUsers(s: Store, query: Option<string>, o: UserOrder): (r: seq<UserRow>)
    ensures multiset(r) == multiset(UserRows(s, query))
    ensures multiset(Seqs.Map(r, RowUser)) == multiset(Seqs.Filter(s.users, UserMatches(query)))
    ensures |r| == Seqs.Count(s.users, UserMatches(query))
    ensures Seqs.SortedDesc(r, UserKey(o))
  {
    var rows := UserRows(s, query);
    Seqs.SortDescLength(rows, UserKey(o));
    Seqs.MapPermutation(Seqs.SortDesc(rows, UserKey(o)), rows, RowUser);
    Seqs.SortDesc(rows, UserKey(o))
  }

  datatype UserPage = UserPage(data: seq<UserRow>, meta: Listing.Meta)

  /** `getUsers`: filter, order, page, and metadata from the match count. */
  function GetUsers(s: Store, params: AdminBook.QueryParams): (r: Result<UserPage, string>)
    ensures var page := params.page.GetOr(AdminBook.DEFAULT_PAGE);
      var limit := params.limit.GetOr(Listing.ITEMS_PER_PAGE);
      r.Ok? <==> limit >= 0 && Listing.Offset(page, limit) >= 0
    ensures r.Ok? ==>
      var page := params.page.GetOr(AdminBook.DEFAULT_PAGE);
      var limit := params.limit.GetOr(Listing.ITEMS_PER_PAGE);
      var o := UserOrderFor(params.sort.GetOr(AdminBook.DEFAULT_SORT));
      var ordered := OrderedUsers(s, params.query, o);
      && |r.value.data| == Listing.PageLength(Seqs.Count(s.users, UserMatches(params.query)), Listing.Offset(page, limit), limit)
      && |r.value.data| <= limit
      && (forall i :: 0 <= i < |r.value.data| ==>
            Listing.Offset(page, limit) + i < |ordered| && r.value.data[i] == ordered[Listing.Offset(page, limit) + i])
      && (forall x :: x in r.value.data ==>
            x.user in s.users && UserMatches(params.query)(x.user) && x.totalBorrowedBooks == LoansOf(s.records, x.user.id))
      && Seqs.SortedDesc(r.value.data, UserKey(o))
      && r.value.meta == Listing.Metadata(Seqs.Count(s.users, UserMatches(params.query)), page)
  {
    var page := params.page.GetOr(AdminBook.DEFAULT_PAGE);
    var limit := params.limit.GetOr(Listing.ITEMS_PER_PAGE);
    var o := UserOrderFor(params.sort.GetOr(AdminBook.DEFAULT_SORT));
    var rows := UserRows(s, params.query);
    var ordered := OrderedUsers(s, params.query, o);
    match Listing.PageOf(ordered, page, limit)
    case None => Err("An error occurred while fetching users")
    case Some(data) =>
      Listing.PageOfSorted(ordered, page, limit, UserKey(o));
      assert forall x :: x in data ==> x in ordered;
      assert forall x :: x in ordered ==> x in rows by {
        forall x | x in ordered ensures x in rows {
          assert x in multiset(ordered);
        }
      }
      Ok(UserPage(data, Listing.Metadata(Seqs.Count(s.users, UserMatches(params.query)), page)))
  }

  /** `updateAccountStatus`: set the status of the rows with this id and
      return them; an unknown id updates and returns nothing. */
  function UpdateAccountStatus(s: Store, userId: Uuid, status: AccountStatus): (r: (Store, seq<User>))
    ensures r.0.books == s.books && r.0.records == s.records
    ensures |r.0.users| == |s.users|
    ensures forall i :: 0 <= i < |s.users| ==>
      r.0.users[i] == if s.users[i].id == userId then s.users[i].(status := Some(status)) else s.users[i]
    ensures forall u :: u in r.1 ==> u.id == userId && u.status == Some(status) && u in r.0.users
    ensures HasUser(s.users, userId) <==> |r.1| > 0
    ensures r.1 == Seqs.Filter(r.0.users, UserIdIs(userId))
    ensures |r.1| == Seqs.Count(s.users, UserIdIs(userId))
  {
    var users := Seqs.MapWhere(s.users, UserIdIs(userId), (u: User) => u.(status := Some(status)));
    var updated := Seqs.Filter(users, UserIdIs(userId));
    Seqs.MapWhereCount(s.users, UserIdIs(userId), (u: User) => u.(status := Some(status)));
    assert HasUser(s.users, userId) ==> |updated| > 0 by {
      if HasUser(s.users, userId) {
        var u :| u in s.users && u.id == userId;
        var i :| 0 <= i < |s.users| && s.users[i] == u;
        assert users[i] in updated;
      }
    }
    assert |updated| > 0 ==> HasUser(s.users, userId) by {
      if |updated| > 0 {
        assert updated[0] in users;
        var i :| 0 <= i < |users| && users[i] == updated[0];
        assert s.users[i].id == userId;
      }
    }
    (s.(users := users), updated)
  }

  datatype RoleChangeError = AuthenticationRequired | NotAdmin | OwnRole | UserNotFound

  function RoleChangeMessage(e: RoleChangeError): string {
    match e
    case AuthenticationRequired => "Authentication required"
    case NotAdmin => "Unauthorized: Only admins can change user roles"
    case OwnRole => "You cannot change your own role"
    case UserNotFound => "User not found"
  }

  /** The updated user and the confirmation message. */
  datatype RoleChanged = RoleChanged(user: User, message: string)

  datatype RoleChangeOutcome = RoleChangeOutcome(store: Store, result: Result<RoleChanged, RoleChangeError>)

  /** `session?.user?.id` is truthy: present and not empty. */
  predicate SignedIn(sessionUserId: Option<Uuid>) {
    sessionUserId.Some? && sessionUserId.value != ""
  }

  /** The role recorded in the store for this id is ADMIN; whatever the
      session claims does not enter into it. */
  predicate IsStoredAdmin(users: seq<User>, id: Uuid) {
    var u := Seqs.First(users, UserIdIs(id));
    u.Some? && u.value.role == Some(ADMIN)
  }

  function RoleName(r: Role): string {
    match r
    case USER => "USER"
    case ADMIN => "ADMIN"
  }

  /** `changeUserRole`, with the signed-in user's id as `sessionUserId`. The
      checks run in order: signed in, stored role ADMIN, not their own id,
      target exists; only then is the target's role written. */
  function ChangeUserRole(s: Store, sessionUserId: Option<Uuid>, userId: Uuid, newRole: Role): (o: RoleChangeOutcome)
    ensures !SignedIn(sessionUserId) ==> o == RoleChangeOutcome(s, Err(AuthenticationRequired))
    ensures SignedIn(sessionUserId) && !IsStoredAdmin(s.users, sessionUserId.value) ==>
      o == RoleChangeOutcome(s, Err(NotAdmin))
    ensures SignedIn(sessionUserId) && IsStoredAdmin(s.users, sessionUserId.value) && userId == sessionUserId.value ==>
      o == RoleChangeOutcome(s, Err(OwnRole))
    ensures (SignedIn(sessionUserId) && IsStoredAdmin(s.users, sessionUserId.value) && userId != sessionUserId.value
             && !HasUser(s.users, userId)) ==>
      o == RoleChangeOutcome(s, Err(UserNotFound))
    ensures o.result.Err? ==> o.store == s
    ensures o.result.Ok? <==>
      SignedIn(sessionUserId) && IsStoredAdmin(s.users, sessionUserId.value) && userId != sessionUserId.value
      && HasUser(s.users, userId)
    ensures o.result.Ok? ==>
      && o.store.books == s.books && o.store.records == s.records
      && |o.store.users| == |s.users|
      && (forall i :: 0 <= i < |s.users| ==>
            o.store.users[i] == if s.users[i].id == userId then s.users[i].(role := Some(newRole)) else s.users[i])
      && o.result.value.user.id == userId && o.result.value.user.role == Some(newRole)
  {
    if !SignedIn(sessionUserId) then RoleChangeOutcome(s, Err(AuthenticationRequired))
    else if !IsStoredAdmin(s.users, sessionUserId.value) then RoleChangeOutcome(s, Err(NotAdmin))
    else if userId == sessionUserId.value then RoleChangeOutcome(s, Err(OwnRole))
    else match Seqs.First(s.users, UserIdIs(userId))
      case None => RoleChangeOutcome(s, Err(UserNotFound))
      case Some(target) =>
        var users := Seqs.MapWhere(s.users, UserIdIs(userId), (u: User) => u.(role := Some(newRole)));
        var message := "Successfully changed " + target.fullName + "'s role to " + ToLower(RoleName(newRole));
        RoleChangeOutcome(s.(users := users), Ok(RoleChanged(target.(role := Some(newRole)), message)))
  }

  /** A role change keeps the store consistent: ids, emails and university
      ids are untouched. */
  lemma RoleChangePreservesConsistency(s: Store, sessionUserId: Option<Uuid>, userId: Uuid, newRole: Role)
    requires Consistent(s)
    ensures Consistent(ChangeUserRole(s, sessionUserId, userId, newRole).store)
  {
    var o := ChangeUserRole(s, sessionUserId, userId, newRole);
    if o.result.Ok? {
      assert forall i :: 0 <= i < |s.users| ==>
        o.store.users[i].id == s.users[i].id && o.store.users[i].email == s.users[i].email
        && o.store.users[i].universityId == s.users[i].universityId;
      assert ReferencesResolve(o.store) by {
        forall r | r in o.store.records ensures HasUser(o.store.users, r.userId) {
          var u :| u in s.users && u.id == r.userId;
          var i :| 0 <= i < |s.users| && s.users[i] == u;
          assert o.store.users[i].id == r.userId;
        }
      }
    }
  }

  /** Rewriting rows other than the acting admin's, without touching any
      id, leaves that admin's stored rights intact. */
  lemma OtherRowsKeepAdmin(users: seq<User>, users1: seq<User>, adminId: Uuid, userId: Uuid)
    requires |users1| == |users| && adminId != userId
    requires forall i :: 0 <= i < |users| ==> users1[i].id == users[i].id
    requires forall i :: 0 <= i < |users| && users[i].id != userId ==> users1[i] == users[i]
    requires IsStoredAdmin(users, adminId)
    ensures IsStoredAdmin(users1, adminId)
  {
    Seqs.FindFirstAgree(users, users1, UserIdIs(adminId), UserIdIs(adminId));
    var a := Seqs.FindFirst(users, UserIdIs(adminId)).value;
    assert users1[a] == users[a];
  }

  /** Changing a user's role and then changing it back restores the users
      table exactly. */
  lemma RoleChangeRoundTrip(s: Store, adminId: Uuid, userId: Uuid, newRole: Role)
    requires UniqueUserKeys(s.users)
    requires ChangeUserRole(s, Some(adminId), userId, newRole).result.Ok?
    ensures var o1 := ChangeUserRole(s, Some(adminId), userId, newRole);
      var target := Seqs.First(s.users, UserIdIs(userId)).value;
      target.role.Some? ==>
        ChangeUserRole(o1.store, Some(adminId), userId, target.role.value).store == s
  {
    var s1 := ChangeUserRole(s, Some(adminId), userId, newRole).store;
    var t := Seqs.FindFirst(s.users, UserIdIs(userId)).value;
    var target := s.users[t];
    if target.role.Some? {
      OtherRowsKeepAdmin(s.users, s1.users, adminId, userId);
      assert HasUser(s1.users, userId) by {
        assert s1.users[t].id == userId;
      }
      var s2 := ChangeUserRole(s1, Some(adminId), userId, target.role.value).store;
      forall i | 0 <= i < |s.users|
        ensures s2.users[i] == s.users[i]
      {
        if s.users[i].id == userId {
          assert i == t;
        }
      }
    }
  }

  /** A row of the borrowing history: the record with its book, which a
      left join leaves absent when the book row is missing. */
  datatype HistoryEntry = HistoryEntry(
    id: Uuid,
    book: Option<Book>,
    borrowDate: Millis,
    dueDate: Day,
    returnDate: Option<Day>,
    status: BorrowStatus)

  /** The borrowing history shows at most this many records. */
  const HISTORY_LIMIT: nat := 10

  function HistoryEntryOf(books: seq<Book>, r: BorrowRecord): HistoryEntry {
    HistoryEntry(r.id, Seqs.First(books, BookIdIs(r.bookId)), r.borrowDate, r.dueDate, r.returnDate, r.status)
  }

  datatype UserDetails = UserDetails(user: User, totalBorrowedBooks: nat, history: seq<HistoryEntry>)

  /** The user's borrow records, newest first, cut to the history limit:
      as many as fit, each stored record at most as often as it is
      stored, and none left out that is newer than the last one shown. */
  function RecentRecords(records: seq<BorrowRecord>, userId: Uuid): (top: seq<BorrowRecord>)
    ensures |top| == (if LoansOf(records, userId) < HISTORY_LIMIT then LoansOf(records, userId) else HISTORY_LIMIT)
    ensures Seqs.SortedDesc(top, ByBorrowDate)
    ensures forall rec :: rec in top ==> rec in records && rec.userId == userId
    ensures multiset(top) <= multiset(Seqs.Filter(records, RecordOfUser(userId)))
    ensures forall rec :: multiset(top)[rec] < multiset(Seqs.Filter(records, RecordOfUser(userId)))[rec] ==>
      |top| == HISTORY_LIMIT && ByBorrowDate(rec) <= ByBorrowDate(top[|top| - 1])
  {
    var mine := Seqs.Filter(records, RecordOfUser(userId));
    var ordered := Seqs.SortDesc(mine, ByBorrowDate);
    Seqs.SortDescLength(mine, ByBorrowDate);
    Seqs.SortDescMembers(mine, ByBorrowDate);
    Seqs.WindowSortedDesc(ordered, 0, HISTORY_LIMIT, ByBorrowDate);
    Newest(mine, HISTORY_LIMIT);
    Seqs.Window(ordered, 0, HISTORY_LIMIT)
  }

  /** What the first `n` of a newest-first sort leave out is no newer
      than the last one kept. */
  lemma Newest(mine: seq<BorrowRecord>, n: nat)
    requires n > 0
    ensures var top := Seqs.Window(Seqs.SortDesc(mine, ByBorrowDate), 0, n);
      && multiset(top) <= multiset(mine)
      && (forall rec :: multiset(top)[rec] < multiset(mine)[rec] ==>
            |top| == n && ByBorrowDate(rec) <= ByBorrowDate(top[|top| - 1]))
  {
    var ordered := Seqs.SortDesc(mine, ByBorrowDate);
    Seqs.SortDescLength(mine, ByBorrowDate);
    NewestPrefix(ordered, Seqs.Window(ordered, 0, n), n);
  }

  /** A prefix of a newest-first list is part of it, and what it leaves out
      is no newer than its last element. */
  lemma NewestPrefix(ordered: seq<BorrowRecord>, top: seq<BorrowRecord>, n: nat)
    requires Seqs.SortedDesc(ordered, ByBorrowDate)
    requires n > 0 && |top| == (if |ordered| < n then |ordered| else n)
    requires forall i :: 0 <= i < |top| ==> top[i] == ordered[i]
    ensures multiset(top) <= multiset(ordered)
    ensures forall rec :: multiset(top)[rec] < multiset(ordered)[rec] ==>
      |top| == n && ByBorrowDate(rec) <= ByBorrowDate(top[|top| - 1])
  {
    var k := |top|;
    assert top == ordered[..k];
    assert ordered == top + ordered[k..];
    assert multiset(ordered) == multiset(top) + multiset(ordered[k..]);
    forall rec | multiset(top)[rec] < multiset(ordered)[rec]
      ensures |top| == n && ByBorrowDate(rec) <= ByBorrowDate(top[|top| - 1])
    {
      assert rec in multiset(ordered[k..]);
      assert rec in ordered[k..];
      var j :| 0 <= j < |ordered[k..]| && ordered[k..][j] == rec;
      assert ordered[k + j] == rec;
    }
  }

  /** The history rows for some records, in the same order. */
  function HistoryOf(books: seq<Book>, top: seq<BorrowRecord>): (h: seq<HistoryEntry>)
    ensures |h| == |top|
    ensures forall i :: 0 <= i < |top| ==> h[i] == HistoryEntryOf(books, top[i])
  {
    seq(|top|, i requires 0 <= i < |top| => HistoryEntryOf(books, top[i]))
  }

  /** The history rows of some of a user's records, newest first, are
      newest first, and each comes from one of the user's records. */
  lemma HistoryOfRecords(s: Store, userId: Uuid, top: seq<BorrowRecord>)
    requires Seqs.SortedDesc(top, ByBorrowDate)
    requires forall rec :: rec in top ==> rec in s.records && rec.userId == userId
    ensures var history := HistoryOf(s.books, top);
      && (forall i, j :: 0 <= i < j < |history| ==> history[i].borrowDate >= history[j].borrowDate)
      && (forall e :: e in history ==>
            exists rec :: rec in s.records && rec.userId == userId && e == HistoryEntryOf(s.books, rec))
  {
    var history := HistoryOf(s.books, top);
    assert forall i :: 0 <= i < |top| ==> history[i].borrowDate == ByBorrowDate(top[i]);
    forall e | e in history
      ensures exists rec :: rec in s.records && rec.userId == userId && e == HistoryEntryOf(s.books, rec)
    {
      var i :| 0 <= i < |history| && history[i] == e;
      assert top[i] in top;
    }
  }

  /** `getUserById`: the user, their loan count, and their ten most recent
      borrow records, newest first. */
  function GetUserById(s: Store, userId: Uuid): (r: Result<UserDetails, string>)
    ensures r.Err? <==> !HasUser(s.users, userId)
    ensures r.Ok? ==>
      && r.value.user in s.users && r.value.user.id == userId
      && r.value.totalBorrowedBooks == LoansOf(s.records, userId)
      && |r.value.history| == (if LoansOf(s.records, userId) < HISTORY_LIMIT then LoansOf(s.records, userId) else HISTORY_LIMIT)
      && (forall i, j :: 0 <= i < j < |r.value.history| ==> r.value.history[i].borrowDate >= r.value.history[j].borrowDate)
      && (forall e :: e in r.value.history ==>
            exists rec :: rec in s.records && rec.userId == userId && e == HistoryEntryOf(s.books, rec))
      && r.value.history == HistoryOf(s.books, RecentRecords(s.records, userId))
  {
    match Seqs.First(s.users, UserIdIs(userId))
    case None => Err("User not found")
    case Some(u) =>
      var top := RecentRecords(s.records, userId);
      var history := HistoryOf(s.books, top);
      HistoryOfRecords(s, userId, top);
      Ok(UserDetails(u, LoansOf(s.records, userId), history))
  }
}

=== FILE: auth.dfy ===
/** Sign-in: the credentials check, and the callbacks that copy the signed-in
    user into the token and the token into the session. */
module Auth {
  import opened Outcomes
  import Seqs
  import opened Schema

  /** The submitted form; either field may be missing. */
  datatype Credentials = Credentials(email: Option<string>, password: Option<string>)

  /** The user object `authorize` returns. */
  datatype AuthUser = AuthUser(id: Uuid, email: string, name: string, role: Option<Role>)

  /** A field is present and not the empty string. */
  predicate Filled(f: Option<string>) {
    f.Some? && f.value != ""
  }

  /** `authorize`: fields filled, a user with that email, the password
      check, then account status APPROVED. `passwordMatches(plain, hash)`
      stands for the bcrypt comparison. */
  function Authorize(users: seq<User>, c: Credentials, passwordMatches: (string, string) -> bool): (r: Option<AuthUser>)
    ensures !Filled(c.email) || !Filled(c.password) ==> r.None?
    ensures Filled(c.email) && !(exists u :: u in users && u.email == c.email.value) ==> r.None?
    ensures r.Some? <==>
      && Filled(c.email) && Filled(c.password)
      && var u := Seqs.First(users, UserEmailIs(c.email.value));
         u.Some? && passwordMatches(c.password.value, u.value.password) && u.value.status == Some(APPROVED)
    ensures r.Some? ==>
      var u := Seqs.First(users, UserEmailIs(c.email.value)).value;
      r.value == AuthUser(u.id, u.email, u.fullName, u.role)
  {
    if !Filled(c.email) || !Filled(c.password) then None
    else match Seqs.First(users, UserEmailIs(c.email.value))
      case None => None
      case Some(u) =>
        if !passwordMatches(c.password.value, u.password) then None
        else if u.status != Some(APPROVED) then None
        else Some(AuthUser(u.id, u.email, u.fullName, u.role))
  }

  /** Only approved accounts sign in: a user whose account is pending,
      rejected or has no status is refused even with the right password. */
  lemma OnlyApprovedSignIn(users: seq<User>, c: Credentials, passwordMatches: (string, string) -> bool)
    requires Authorize(users, c, passwordMatches).Some?
    ensures exists u :: (u in users && u.email == c.email.value && u.status == Some(APPROVED)
      && u.id == Authorize(users, c, passwordMatches).value.id)
  {
    var u := Seqs.First(users, UserEmailIs(c.email.value)).value;
    assert u in users;
  }

  /** The JWT fields the callbacks maintain; absent until set. */
  datatype Token = Token(id: Option<Uuid>, name: Option<string>, role: Option<Role>)

  /** The `jwt` callback: on sign-in copy id and name, and the role with
      USER when the user has none; otherwise keep the token. */
  function Jwt(token: Token, user: Option<AuthUser>): (t: Token)
    ensures user.None? ==> t == token
    ensures user.Some? ==> t.id == Some(user.value.id) && t.name == Some(user.value.name)
    ensures user.Some? ==> t.role == Some(if user.value.role == Some(ADMIN) then ADMIN else USER)
  {
    match user
    case None => token
    case Some(u) =>
      assert u.role.GetOr(USER) == if u.role == Some(ADMIN) then ADMIN else USER by {
        if u.role.Some? {
          assert u.role.value == ADMIN || u.role.value == USER;
        }
      }
      Token(Some(u.id), Some(u.name), Some(u.role.GetOr(USER)))
  }

  datatype SessionUser = SessionUser(id: Option<Uuid>, name: Option<string>, email: string, role: Option<Role>)

  datatype Session = Session(user: Option<SessionUser>)

  /** The `session` callback: when the session has a user, its id, name and
      role are taken from the token and its email is kept. */
  function SessionFromToken(session: Session, token: Token): (r: Session)
    ensures r.user.Some? <==> session.user.Some?
    ensures r.user.Some? ==>
      && r.user.value.id == token.id && r.user.value.name == token.name && r.user.value.role == token.role
      && r.user.value.email == session.user.value.email
  {
    match session.user
    case None => session
    case Some(su) => Session(Some(su.(id := token.id, name := token.name, role := token.role)))
  }

  /** After a successful sign-in, the session carries the stored id and
      full name, and the stored role, defaulting to USER. */
  lemma SignInReachesSession(users: seq<User>, c: Credentials, passwordMatches: (string, string) -> bool,
                             token: Token, email: string)
    requires Authorize(users, c, passwordMatches).Some?
    ensures var u := Seqs.First(users, UserEmailIs(c.email.value)).value;
      var t := Jwt(token, Authorize(users, c, passwordMatches));
      var s := SessionFromToken(Session(Some(SessionUser(None, None, email, None))), t);
      && s.user.value.id == Some(u.id)
      && s.user.value.name == Some(u.fullName)
      && s.user.value.role == Some(u.role.GetOr(USER))
  {
  }
}

=== FILE: book_actions.dfy ===
/** The user-facing book actions: borrowing a book and listing the books a
    user has borrowed. */
module BookActions {
  import opened Outcomes
  import Seqs
  import opened Schema
  import opened Ledger

  /** A loan lasts seven days from the day of borrowing. */
  const LOAN_PERIOD_DAYS: int := 7

  datatype BorrowError = AlreadyBorrowed | NotAvailable | BorrowFailed

  /** The error strings the action returns. `BorrowFailed` is the catch-all
      for any exception: a rejected insert or a failed workflow trigger. */
  function BorrowMessage(e: BorrowError): string {
    match e
    case AlreadyBorrowed => "You have already borrowed this book"
    case NotAvailable => "Book is not available"
    case BorrowFailed => "Error borrowing book"
  }

  /** The driver's report of the insert, which the action passes back as
      its `data`. The insert has no `.returning()`, so the report carries
      no column of the new row. */
  datatype InsertReport = InsertReport

  /** The store after the action and what the action returned. */
  datatype BorrowOutcome = BorrowOutcome(store: Store, result: Result<InsertReport, BorrowError>)

  /** `availableCopies` of the first book row with this id, if any. */
  function CopiesOf(books: seq<Book>, bookId: Uuid): Option<int> {
    match Seqs.First(books, BookIdIs(bookId))
    case None => None
    case Some(b) => Some(b.availableCopies)
  }

  /** The availability guard: the book exists and has a copy left. */
  predicate Lendable(books: seq<Book>, bookId: Uuid) {
    CopiesOf(books, bookId).Some? && CopiesOf(books, bookId).value > 0
  }

  /** The database accepts inserting `rec`: its foreign keys resolve and
      its id is not taken. Otherwise the insert throws. */
  predicate InsertAccepted(s: Store, rec: BorrowRecord) {
    && HasUser(s.users, rec.userId)
    && HasBook(s.books, rec.bookId)
    && !(exists r :: r in s.records && r.id == rec.id)
  }

  /** `update books set availableCopies = n where id = bookId`. */
  function SetAvailableCopies(books: seq<Book>, bookId: Uuid, n: int): (r: seq<Book>)
    ensures |r| == |books|
    ensures forall i :: 0 <= i < |books| ==>
      r[i] == if books[i].id == bookId then books[i].(availableCopies := n) else books[i]
  {
    Seqs.MapWhere(books, BookIdIs(bookId), (b: Book) => b.(availableCopies := n))
  }

  /** The record a successful borrow inserts: due seven days after the day
      of borrowing. */
  function LoanRecord(newId: Uuid, userId: Uuid, bookId: Uuid, now: Millis): (r: BorrowRecord)
    ensures r.id == newId && r.userId == userId && r.bookId == bookId
    ensures r.status == BORROWED && r.returnDate.None?
    ensures r.borrowDate == now && r.dueDate == DayOf(now) + LOAN_PERIOD_DAYS
  {
    NewBorrowRecord(newId, userId, bookId, now, DayOf(now) + LOAN_PERIOD_DAYS)
  }

  /** `borrowBook`. The duplicate-borrow guard runs first, then the
      availability guard; then the record is inserted, the copy count is
      written back as the value read minus one, and the borrow workflow is
      triggered. `now` is the server clock, `newId` the id the database
      draws for the record and `notified` whether the trigger succeeded: a
      failed trigger is reported as an error although the insert and the
      decrement have already happened. */
  function BorrowBook(s: Store, userId: Uuid, bookId: Uuid, now: Millis, newId: Uuid, notified: bool): (o: BorrowOutcome)
    ensures HasActiveBorrow(s.records, userId, bookId) ==> o == BorrowOutcome(s, Err(AlreadyBorrowed))
    ensures !HasActiveBorrow(s.records, userId, bookId) && !Lendable(s.books, bookId) ==>
      o == BorrowOutcome(s, Err(NotAvailable))
    ensures (!HasActiveBorrow(s.records, userId, bookId) && Lendable(s.books, bookId)
             && !InsertAccepted(s, LoanRecord(newId, userId, bookId, now))) ==>
      o == BorrowOutcome(s, Err(BorrowFailed))
    ensures o.store != s <==>
      && !HasActiveBorrow(s.records, userId, bookId)
      && Lendable(s.books, bookId)
      && InsertAccepted(s, LoanRecord(newId, userId, bookId, now))
    ensures o.store != s ==>
      o.store == Store(s.users,
                       SetAvailableCopies(s.books, bookId, CopiesOf(s.books, bookId).value - 1),
                       s.records + [LoanRecord(newId, userId, bookId, now)])
    ensures o.result.Ok? <==> o.store != s && notified
    ensures o.result.Err? && o.store != s ==> o.result.error == BorrowFailed
  {
    if HasActiveBorrow(s.records, userId, bookId) then BorrowOutcome(s, Err(AlreadyBorrowed))
    else match CopiesOf(s.books, bookId)
      case None => BorrowOutcome(s, Err(NotAvailable))
      case Some(copies) =>
        if copies <= 0 then BorrowOutcome(s, Err(NotAvailable))
        else
          var rec := LoanRecord(newId, userId, bookId, now);
          if !InsertAccepted(s, rec) then BorrowOutcome(s, Err(BorrowFailed))
          else
            var s' := Store(s.users, SetAvailableCopies(s.books, bookId, copies - 1), s.records + [rec]);
            assert s'.records != s.records by { assert |s'.records| == |s.records| + 1; }
            if notified then BorrowOutcome(s', Ok(InsertReport)) else BorrowOutcome(s', Err(BorrowFailed))
  }

  /** Active-borrow counts after appending one record. */
  lemma ActiveBorrowsAfterAppend(records: seq<BorrowRecord>, rec: BorrowRecord, id: Uuid)
    ensures ActiveBorrows(records + [rec], id) ==
      ActiveBorrows(records, id) + (if rec.bookId == id && rec.status == BORROWED then 1 else 0)
  {
    Seqs.CountAppendOne(records, rec, IsActiveBorrowOf(id));
  }

  /** Borrowing keeps the store consistent: in particular every book's
      available copies stay equal to its total minus its active loans, and
      stay non-negative. */
  lemma {:induction false} BorrowPreservesConsistency(s: Store, userId: Uuid, bookId: Uuid, now: Millis, newId: Uuid, notified: bool)
    requires Consistent(s)
    ensures Consistent(BorrowBook(s, userId, bookId, now, newId, notified).store)
  {
    var o := BorrowBook(s, userId, bookId, now, newId, notified);
    if o.store != s {
      var rec := LoanRecord(newId, userId, bookId, now);
      var t := o.store;
      var k := Seqs.FindFirst(s.books, BookIdIs(bookId));
      assert k.Some?;
      var copies := s.books[k.value].availableCopies;
      assert CopiesOf(s.books, bookId) == Some(copies);
      // the rewritten rows are exactly the ones with this id
      forall i | 0 <= i < |t.books|
        ensures t.books[i].id == s.books[i].id
        ensures t.books[i].totalCopies == s.books[i].totalCopies
      {
      }
      assert UniqueBookIds(t.books);
      assert UniqueRecordIds(t.records) by {
        forall i, j | 0 <= i < j < |t.records|
          ensures t.records[i].id != t.records[j].id
        {
          if j == |s.records| {
            assert t.records[i] in s.records;
          }
        }
      }
      assert ReferencesResolve(t) by {
        forall r | r in t.records
          ensures HasBook(t.books, r.bookId) && HasUser(t.users, r.userId)
        {
          var b :| b in s.books && b.id == r.bookId;
          var j :| 0 <= j < |s.books| && s.books[j] == b;
          assert t.books[j].id == r.bookId;
        }
      }
      assert OneActiveBorrowPerUserAndBook(t.records) by {
        forall i, j | 0 <= i < j < |t.records| && t.records[i].status == BORROWED && t.records[j].status == BORROWED
          ensures t.records[i].userId != t.records[j].userId || t.records[i].bookId != t.records[j].bookId
        {
          if j == |s.records| {
            assert t.records[i] in s.records;
          }
        }
      }
      assert CopiesBalance(t) by {
        forall i | 0 <= i < |t.books|
          ensures t.books[i].availableCopies == t.books[i].totalCopies - ActiveBorrows(t.records, t.books[i].id)
          ensures t.books[i].availableCopies >= 0
        {
          ActiveBorrowsAfterAppend(s.records, rec, s.books[i].id);
          if s.books[i].id == bookId {
            LookupIsUnique(s.books, bookId, i);
          }
        }
      }
    }
  }

  /** Once a borrow succeeded, the same user borrowing the same book again
      is refused as a duplicate and changes nothing, so the copy count goes
      down by one in all, not two. */
  lemma BorrowTwiceRejected(s: Store, userId: Uuid, bookId: Uuid, now: Millis, newId: Uuid,
                            later: Millis, otherId: Uuid, notified: bool)
    requires BorrowBook(s, userId, bookId, now, newId, true).result.Ok?
    ensures var s1 := BorrowBook(s, userId, bookId, now, newId, true).store;
      BorrowBook(s1, userId, bookId, later, otherId, notified) == BorrowOutcome(s1, Err(AlreadyBorrowed))
  {
    var o := BorrowBook(s, userId, bookId, now, newId, true);
    assert LoanRecord(newId, userId, bookId, now) in o.store.records;
  }

  /** The duplicate guard only looks at BORROWED records: a user whose
      records for this book are all RETURNED may borrow it again. */
  lemma ReturnedLoansDoNotBlock(s: Store, userId: Uuid, bookId: Uuid, now: Millis, newId: Uuid)
    requires forall r :: r in s.records && r.userId == userId && r.bookId == bookId ==> r.status == RETURNED
    requires Lendable(s.books, bookId)
    requires InsertAccepted(s, LoanRecord(newId, userId, bookId, now))
    ensures BorrowBook(s, userId, bookId, now, newId, true).result.Ok?
  {
  }

  /** When the last copy of a book has been lent, every other borrow of it
      fails and leaves the store as it is. */
  lemma {:induction false} LastCopyLent(s: Store, a: Uuid, b: Uuid, bookId: Uuid, now: Millis, newId: Uuid,
                                       later: Millis, otherId: Uuid, notified: bool)
    requires Consistent(s)
    requires CopiesOf(s.books, bookId) == Some(1)
    requires BorrowBook(s, a, bookId, now, newId, true).result.Ok?
    ensures var s1 := BorrowBook(s, a, bookId, now, newId, true).store;
      var o2 := BorrowBook(s1, b, bookId, later, otherId, notified);
      o2.result.Err? && o2.store == s1
  {
    var s1 := BorrowBook(s, a, bookId, now, newId, true).store;
    var k := Seqs.FindFirst(s.books, BookIdIs(bookId));
    assert k.Some?;
    var i := k.value;
    assert s1.books[i].availableCopies == 0;
    LookupIsUnique(s.books, bookId, i);
    assert UniqueBookIds(s1.books) by {
      forall x, y | 0 <= x < y < |s1.books| ensures s1.books[x].id != s1.books[y].id {
        assert s1.books[x].id == s.books[x].id && s1.books[y].id == s.books[y].id;
      }
    }
    LookupIsUnique(s1.books, bookId, i);
    assert !Lendable(s1.books, bookId);
  }

  /** A row of `getBorrowedBooks`: the book joined with one of its records. */
  datatype BorrowedBook = BorrowedBook(book: Book, borrow: BorrowRecord)

  function BorrowOf(x: BorrowedBook): BorrowRecord {
    x.borrow
  }

  /** The record has a book row and a user row to join with. */
  function Joinable(s: Store): BorrowRecord -> bool {
    (rec: BorrowRecord) => HasBook(s.books, rec.bookId) && HasUser(s.users, rec.userId)
  }

  /** The inner join of records with `books` and `users`: a record whose
      book or user row is missing produces no row; every other record
      produces one row, in record order, carrying the book row that the
      lookup by id returns. */
  function JoinBooks(s: Store, records: seq<BorrowRecord>): (r: seq<BorrowedBook>)
    ensures Seqs.Map(r, BorrowOf) == Seqs.Filter(records, Joinable(s))
    ensures forall i :: 0 <= i < |r| ==> Seqs.First(s.books, BookIdIs(r[i].borrow.bookId)) == Some(r[i].book)
    ensures forall x :: x in r ==>
      x.borrow in records && x.book in s.books && x.book.id == x.borrow.bookId && HasUser(s.users, x.borrow.userId)
  {
    if records == [] then []
    else
      var rest := JoinBooks(s, records[1..]);
      var head := records[0];
      assert forall rec :: rec in records[1..] ==> rec in records;
      match Seqs.First(s.books, BookIdIs(head.bookId))
      case None => rest
      case Some(b) =>
        if HasUser(s.users, head.userId) then
          Seqs.MapCons(BorrowedBook(b, head), rest, BorrowOf);
          [BorrowedBook(b, head)] + rest
        else rest
  }

  /** The key of `orderBy(desc(borrowRecords.borrowDate))` on a joined row. */
  function JoinedBorrowDate(x: BorrowedBook): int {
    ByBorrowDate(x.borrow)
  }

  /** `getBorrowedBooks`: the user's records joined with their books, most
      recently borrowed first. Each of the user's records with a book row
      appears as often as it is stored, provided the user row exists. */
  function GetBorrowedBooks(s: Store, userId: Uuid): (r: seq<BorrowedBook>)
    ensures forall rec ::
              multiset(Seqs.Map(r, BorrowOf))[rec] ==
              (if rec.userId == userId && HasBook(s.books, rec.bookId) && HasUser(s.users, userId)
               then multiset(s.records)[rec] else 0)
    ensures forall x :: x in r ==>
      x.borrow in s.records && x.borrow.userId == userId && Seqs.First(s.books, BookIdIs(x.borrow.bookId)) == Some(x.book)
    ensures Seqs.SortedDesc(r, JoinedBorrowDate)
  {
    var mine := Seqs.Filter(s.records, RecordOfUser(userId));
    var joined := JoinBooks(s, mine);
    var r := Seqs.SortDesc(joined, JoinedBorrowDate);
    assert forall x :: x in r ==> x in joined by {
      forall x | x in r ensures x in joined {
        assert x in multiset(r);
      }
    }
    assert forall x :: x in joined ==> Seqs.First(s.books, BookIdIs(x.borrow.bookId)) == Some(x.book) by {
      forall x | x in joined ensures Seqs.First(s.books, BookIdIs(x.borrow.bookId)) == Some(x.book) {
        var i :| 0 <= i < |joined| && joined[i] == x;
      }
    }
    Seqs.MapPermutation(r, joined, BorrowOf);
    forall rec ensures multiset(Seqs.Map(r, BorrowOf))[rec] ==
      (if rec.userId == userId && HasBook(s.books, rec.bookId) && HasUser(s.users, userId)
       then multiset(s.records)[rec] else 0)
    {
      Seqs.FilterMultiset(mine, Joinable(s), rec);
      Seqs.FilterMultiset(s.records, RecordOfUser(userId), rec);
    }
    r
  }
}

=== FILE: borrow_records_page.dfy ===
/** The admin borrow-records page: the status shown for each record and
    the newest-first order of the rows. */
module BorrowRecordsPage {
  import Seqs
  import opened Schema

  /** The status shown: "borrowed", "returned" or "overdue". */
  datatype DisplayStatus = Borrowed | Returned | Overdue

  function DisplayName(d: DisplayStatus): string {
    match d
    case Borrowed => "borrowed"
    case Returned => "returned"
    case Overdue => "overdue"
  }

  /** `getActualStatus` on a stored status and due date at instant `now`.
      The due date is read as midnight UTC of its day, so a loan turns
      overdue at the first instant after that midnight. */
  function Derive(status: BorrowStatus, dueDate: Day, now: Millis): (d: DisplayStatus)
    ensures status == RETURNED <==> d == Returned
    ensures d == Overdue <==> status == BORROWED && now > StartOfDay(dueDate)
    ensures d == Borrowed <==> status == BORROWED && now <= StartOfDay(dueDate)
  {
    if status == RETURNED then Returned
    else assert status == BORROWED; if now > StartOfDay(dueDate) && status == BORROWED then Overdue
    else Borrowed
  }

  /** The status shown for a record; computed, never written back. */
  function ActualStatus(r: BorrowRecord, now: Millis): DisplayStatus {
    Derive(r.status, r.dueDate, now)
  }

  /** Once overdue, a record stays overdue as time passes until it is
      returned; time alone never turns it back to "borrowed". */
  lemma OverdueIsPermanent(r: BorrowRecord, now: Millis, later: Millis)
    requires ActualStatus(r, now) == Overdue && now <= later
    ensures ActualStatus(r, later) == Overdue
  {
  }

  /** A returned record shows "returned" whatever its dates and the time. */
  lemma ReturnedIgnoresDates(r: BorrowRecord, now: Millis)
    requires r.status == RETURNED
    ensures ActualStatus(r, now) == Returned
  {
  }

  /** A record that has just been borrowed shows "borrowed" from the moment
      of borrowing until midnight UTC that starts its due day, seven days
      later, and "overdue" at every instant after. */
  lemma LoanTimeline(id: Uuid, userId: Uuid, bookId: Uuid, borrowedAt: Millis, t: Millis)
    requires borrowedAt <= t
    ensures var r := NewBorrowRecord(id, userId, bookId, borrowedAt, DayOf(borrowedAt) + 7);
      ActualStatus(r, t) == (if t <= StartOfDay(DayOf(borrowedAt) + 7) then Borrowed else Overdue)
    ensures StartOfDay(DayOf(borrowedAt) + 7) - borrowedAt > 6 * DAY_MS
  {
  }

  /** On its due day, a loan shows "overdue" at every instant after
      midnight UTC. */
  lemma OverdueOnDueDay(r: BorrowRecord, now: Millis)
    requires r.status == BORROWED && DayOf(now) == r.dueDate && now % DAY_MS != 0
    ensures ActualStatus(r, now) == Overdue
  {
  }

  /** A displayed row: the record with its book and borrower. */
  datatype RecordRow = RecordRow(book: Book, user: User, borrow: BorrowRecord)

  function RowBorrowDate(row: RecordRow): int {
    ByBorrowDate(row.borrow)
  }

  /** The client-side sort of the fetched rows, newest borrow first: the
      same rows, reordered. */
  function DisplayOrder(rows: seq<RecordRow>): (r: seq<RecordRow>)
    ensures multiset(r) == multiset(rows)
    ensures forall i, j :: 0 <= i < j < |r| ==> r[i].borrow.borrowDate >= r[j].borrow.borrowDate
  {
    var sorted := Seqs.SortDesc(rows, RowBorrowDate);
    assert forall i, j :: 0 <= i < j < |sorted| ==> RowBorrowDate(sorted[i]) >= RowBorrowDate(sorted[j]);
    sorted
  }
}

=== FILE: borrow_status.dfy ===
/** The admin's borrow-status dropdown: the colour of a status, the click
    guard, the state after the server replies and the item shown on the
    button (components/admin/BorrowStatus.tsx). */
module BorrowStatusMenu {
  import opened Outcomes
  import opened Text
  import opened ClientReplies
  import Seqs
  import BorrowRecordsPage

  datatype Colors = Colors(background: string, text: string)

  const BORROWED_BLUE := "#3B82F6"
  const RETURNED_GREEN := "#10B981"
  const OVERDUE_RED := "#EF4444"
  const UNKNOWN_GRAY := "#6B7280"
  const WHITE := "#FFFFFF"

  /** `getStatusColors`: a colour per status name, compared after
      lower-casing, gray for anything else; the text is always white. */
  function StatusColors(value: string): (c: Colors)
    ensures c.text == WHITE
    ensures c.background == BORROWED_BLUE <==> ToLower(value) == "borrowed"
    ensures c.background == RETURNED_GREEN <==> ToLower(value) == "returned"
    ensures c.background == OVERDUE_RED <==> ToLower(value) == "overdue"
    ensures c.background == UNKNOWN_GRAY <==>
      ToLower(value) != "borrowed" && ToLower(value) != "returned" && ToLower(value) != "overdue"
  {
    var key := ToLower(value);
    if key == "borrowed" then Colors(BORROWED_BLUE, WHITE)
    else if key == "returned" then Colors(RETURNED_GREEN, WHITE)
    else if key == "overdue" then Colors(OVERDUE_RED, WHITE)
    else Colors(UNKNOWN_GRAY, WHITE)
  }

  lemma LowerOfUpper(s: string)
    ensures ToLower(ToUpper(s)) == ToLower(s)
  {
    assert forall i :: 0 <= i < |s| ==> LowerChar(UpperChar(s[i])) == LowerChar(s[i]);
  }

  /** Case does not matter: a value and its upper-cased spelling (the one
      sent to the server) get the same colours. */
  lemma ColorsIgnoreCase(value: string)
    ensures StatusColors(ToUpper(value)) == StatusColors(value)
  {
    LowerOfUpper(value);
  }

  /** The three statuses the borrow-records page derives get blue, green
      and red. */
  lemma DisplayStatusColors(d: BorrowRecordsPage.DisplayStatus)
    ensures StatusColors(BorrowRecordsPage.DisplayName(d)).background ==
      match d
      case Borrowed => BORROWED_BLUE
      case Returned => RETURNED_GREEN
      case Overdue => OVERDUE_RED
  {
    var name := BorrowRecordsPage.DisplayName(d);
    var lower := match d case Borrowed => "borrowed" case Returned => "returned" case Overdue => "overdue";
    assert ToLower(name) == lower by {
      forall i | 0 <= i < |name| ensures ToLower(name)[i] == lower[i] { }
    }
  }

  /** The state a click leaves behind: the status sent to the server, if
      any; the active item; what runs after a success; and the toast. */
  datatype FollowUp = NotifyParent | RefreshRoute

  datatype ItemClick = ItemClick(sent: Option<string>, activeItem: string, followUp: Option<FollowUp>, toast: Option<Toast>)

  /** `handleItemClick(value)` given whether an `onStatusChange` callback
      was passed and the reply of `updateBorrowStatus`. */
  function HandleItemClick(activeItem: string, value: string, hasCallback: bool, reply: ServerReply): (r: ItemClick)
    ensures value == activeItem ==> r == ItemClick(None, activeItem, None, None)
    ensures r.sent.Some? <==> value != activeItem
    ensures r.sent.Some? ==> r.sent.value == ToUpper(value)
    ensures r.activeItem != activeItem ==> r.sent.Some? && reply == Succeeded && r.activeItem == value
    ensures r.followUp.Some? <==> r.sent.Some? && reply == Succeeded
    ensures r.followUp == Some(NotifyParent) <==> r.sent.Some? && reply == Succeeded && hasCallback
    ensures r.followUp == Some(RefreshRoute) <==> r.sent.Some? && reply == Succeeded && !hasCallback
    ensures r.sent.Some? && reply == Succeeded ==> r.activeItem == value && r.toast.Some? && !r.toast.value.destructive
    ensures r.sent.Some? && reply != Succeeded ==> r.activeItem == activeItem && r.toast.Some? && r.toast.value.destructive
  {
    if value == activeItem then ItemClick(None, activeItem, None, None)
    else
      var sent := Some(ToUpper(value));
      match reply
      case Succeeded =>
        ItemClick(sent, value, Some(if hasCallback then NotifyParent else RefreshRoute),
          Some(Toast("Status Updated", "Borrow status changed to " + value, false)))
      case Failed(message) =>
        ItemClick(sent, activeItem, None, Some(Toast("Error", MessageOr(message, "Failed to update status"), true)))
      case Threw =>
        ItemClick(sent, activeItem, None, Some(Toast("Error", "An unexpected error occurred while updating status", true)))
  }

  /** Two clicks on the same item with a successful reply: the second one
      is ignored, whatever its reply. */
  lemma RepeatClickIgnored(activeItem: string, value: string, hasCallback: bool, reply: ServerReply)
    ensures var first := HandleItemClick(activeItem, value, hasCallback, Succeeded);
      HandleItemClick(first.activeItem, value, hasCallback, reply) == ItemClick(None, first.activeItem, None, None)
  {
  }

  /** `caption` is the item's `label`. */
  datatype MenuItem = MenuItem(value: string, caption: string, background: string, text: string)

  function ValueIs(v: string): MenuItem -> bool {
    (item: MenuItem) => item.value == v
  }

  /** `items.find(item => item.value === activeItem) || items[0]`; with no
      items the expression is undefined. */
  function ActiveMenuItem(items: seq<MenuItem>, activeItem: string): (r: Option<MenuItem>)
    ensures r.Some? <==> |items| > 0
    ensures r.Some? ==> r.value in items
    ensures (exists i :: 0 <= i < |items| && items[i].value == activeItem) ==>
      r.Some? && r.value.value == activeItem
    ensures |items| > 0 && (forall i :: 0 <= i < |items| ==> items[i].value != activeItem) ==>
      r == Some(items[0])
  {
    match Seqs.FindFirst(items, ValueIs(activeItem))
    case Some(i) => Some(items[i])
    case None => if |items| > 0 then Some(items[0]) else None
  }

  /** The first item with the active value is the one shown. */
  lemma ActiveItemIsFirstMatch(items: seq<MenuItem>, activeItem: string, k: nat)
    requires k < |items| && items[k].value == activeItem
    requires forall j :: 0 <= j < k ==> items[j].value != activeItem
    ensures ActiveMenuItem(items, activeItem) == Some(items[k])
  {
    assert ValueIs(activeItem)(items[k]);
  }
}

=== FILE: client_replies.dfy ===
/** What a client component sees of a server action it awaits inside a
    transition, and the toast it shows afterwards. */
module ClientReplies {
  import opened Outcomes

  /** The awaited action resolved with `success: true`, resolved with
      `success: false` and an optional message, or threw. */
  datatype ServerReply = Succeeded | Failed(message: Option<string>) | Threw

  datatype Toast = Toast(title: string, description: string, destructive: bool)

  /** `result.message || fallback`: an absent or empty message falls back. */
  function MessageOr(message: Option<string>, fallback: string): (r: string)
    ensures r == fallback || (message.Some? && r == message.value)
    ensures r != "" || fallback == ""
  {
    if message.Some? && message.value != "" then message.value else fallback
  }
}

=== FILE: ledger.dfy ===
/** The inventory ledger: the invariant relating each book's
    `availableCopies` to the borrow records, and the other integrity
    conditions of a well-formed store. */
module Ledger {
  import opened Outcomes
  import Seqs
  import opened Schema

  /** A record that holds a copy of `bookId` right now. */
  function IsActiveBorrowOf(bookId: Uuid): BorrowRecord -> bool {
    (r: BorrowRecord) => r.bookId == bookId && r.status == BORROWED
  }

  /** How many copies of `bookId` are out on loan. */
  function ActiveBorrows(records: seq<BorrowRecord>, bookId: Uuid): nat {
    Seqs.Count(records, IsActiveBorrowOf(bookId))
  }

  /** `userId` holds a BORROWED record for `bookId`. */
  predicate HasActiveBorrow(records: seq<BorrowRecord>, userId: Uuid, bookId: Uuid) {
    exists r :: r in records && r.userId == userId && r.bookId == bookId && r.status == BORROWED
  }

  predicate UniqueBookIds(books: seq<Book>) {
    forall i, j :: 0 <= i < j < |books| ==> books[i].id != books[j].id
  }

  predicate UniqueRecordIds(records: seq<BorrowRecord>) {
    forall i, j :: 0 <= i < j < |records| ==> records[i].id != records[j].id
  }

  /** Each book's available copies are its total minus those on loan, and
      never negative. */
  predicate CopiesBalance(s: Store) {
    forall i :: 0 <= i < |s.books| ==>
      && s.books[i].availableCopies == s.books[i].totalCopies - ActiveBorrows(s.records, s.books[i].id)
      && s.books[i].availableCopies >= 0
  }

  /** No user holds two BORROWED records for the same book. */
  predicate OneActiveBorrowPerUserAndBook(records: seq<BorrowRecord>) {
    forall i, j :: 0 <= i < j < |records| && records[i].status == BORROWED && records[j].status == BORROWED ==>
      records[i].userId != records[j].userId || records[i].bookId != records[j].bookId
  }

  /** `returnDate` is set exactly on RETURNED records. */
  predicate ReturnDateMatchesStatus(records: seq<BorrowRecord>) {
    forall r :: r in records ==> (r.returnDate.Some? <==> r.status == RETURNED)
  }

  /** The foreign keys of `borrow_records` resolve. */
  predicate ReferencesResolve(s: Store) {
    forall r :: r in s.records ==> HasBook(s.books, r.bookId) && HasUser(s.users, r.userId)
  }

  /** A well-formed store: primary and unique keys hold, foreign keys
      resolve, and the copy counts balance. */
  predicate Consistent(s: Store) {
    && UniqueUserKeys(s.users)
    && UniqueBookIds(s.books)
    && UniqueRecordIds(s.records)
    && ReferencesResolve(s)
    && ReturnDateMatchesStatus(s.records)
    && OneActiveBorrowPerUserAndBook(s.records)
    && CopiesBalance(s)
  }

  /** In a consistent store every book has between zero and all of its
      copies available. */
  lemma CopiesWithinBounds(s: Store, i: nat)
    requires Consistent(s) && i < |s.books|
    ensures 0 <= s.books[i].availableCopies <= s.books[i].totalCopies
  {
  }

  /** With unique ids, the row a lookup by id returns is the row at any
      index carrying that id. */
  lemma {:induction false} LookupIsUnique(books: seq<Book>, id: Uuid, i: nat)
    requires UniqueBookIds(books) && i < |books| && books[i].id == id
    ensures Seqs.First(books, BookIdIs(id)) == Some(books[i])
  {
    var k := Seqs.FindFirst(books, BookIdIs(id));
    assert BookIdIs(id)(books[i]);
    assert k.Some?;
    assert books[k.value].id == id;
  }
}

=== FILE: listing.dfy ===
/** Pagination shared by the admin listings: a page is a window of the
    ordered result, and the metadata counts pages of a fixed size. */
module Listing {
  import opened Outcomes
  import Seqs

  /** The page size the metadata divides by, whatever `limit` was asked for. */
  const ITEMS_PER_PAGE: int := 20

  /** `Math.ceil(count / ITEMS_PER_PAGE)`: the fewest pages of
      `ITEMS_PER_PAGE` items that hold `count` items. */
  function TotalPages(count: nat): (n: nat)
    ensures n * ITEMS_PER_PAGE >= count
    ensures n > 0 ==> (n - 1) * ITEMS_PER_PAGE < count
  {
    (count + ITEMS_PER_PAGE - 1) / ITEMS_PER_PAGE
  }

  /** The `metadata` object of a listing. */
  datatype Meta = Meta(totalPages: nat, hasNextPage: bool)

  /** The metadata for `count` matching items seen from page `page`. */
  function Metadata(count: nat, page: int): (m: Meta)
    ensures m.totalPages * ITEMS_PER_PAGE >= count
    ensures m.totalPages > 0 ==> (m.totalPages - 1) * ITEMS_PER_PAGE < count
    ensures m.hasNextPage <==> page < m.totalPages
  {
    var n := TotalPages(count);
    Meta(n, page < n)
  }

  /** The first item of page `page`: `(page - 1) * limit`. */
  function Offset(page: int, limit: int): int {
    (page - 1) * limit
  }

  /** How many of `total` ordered items a page starting at `offset` holds:
      all that remain, but at most `limit`. */
  function PageLength(total: nat, offset: nat, limit: nat): nat {
    if offset >= total then 0 else if total - offset < limit then total - offset else limit
  }

  /** `.limit(limit).offset((page - 1) * limit)` on an ordered result. A
      negative limit or offset makes the database raise, which the action
      turns into its error result (`None` here). */
  function PageOf<T>(ordered: seq<T>, page: int, limit: int): (r: Option<seq<T>>)
    ensures r.Some? <==> limit >= 0 && Offset(page, limit) >= 0
    ensures r.Some? ==> |r.value| == PageLength(|ordered|, Offset(page, limit), limit) <= limit
    ensures r.Some? ==> forall i :: 0 <= i < |r.value| ==>
      Offset(page, limit) + i < |ordered| && r.value[i] == ordered[Offset(page, limit) + i]
  {
    var offset := Offset(page, limit);
    if limit < 0 || offset < 0 then None
    else Some(Seqs.Window(ordered, offset, limit))
  }

  /** A window of a sorted sequence is sorted. */
  lemma PageOfSorted<T>(ordered: seq<T>, page: int, limit: int, key: T -> int)
    requires Seqs.SortedDesc(ordered, key)
    requires PageOf(ordered, page, limit).Some?
    ensures Seqs.SortedDesc(PageOf(ordered, page, limit).value, key)
  {
    var w := PageOf(ordered, page, limit).value;
    var off := Offset(page, limit);
    forall i, j | 0 <= i < j < |w| ensures key(w[i]) >= key(w[j]) {
      assert w[i] == ordered[off + i] && w[j] == ordered[off + j];
    }
  }

  /** As written, a listing asked for pages smaller than twenty can report
      no next page while the next page holds items: ten items shown six at a
      time give one "page" of metadata, yet page two has four items. */
  lemma NextPageHiddenWithSmallLimit(ordered: seq<int>)
    requires |ordered| == 10
    ensures !Metadata(|ordered|, 1).hasNextPage
    ensures PageOf(ordered, 2, 6).Some? && |PageOf(ordered, 2, 6).value| == 4
  {
  }

  /** The page count for the page size actually used. */
  function PagesForLimit(count: nat, limit: nat): (n: nat)
    requires limit > 0
    ensures n * limit >= count
    ensures n > 0 ==> (n - 1) * limit < count
  {
    (count + limit - 1) / limit
  }

  /** Metadata computed with the requested page size. */
  function MetadataForLimit(count: nat, page: int, limit: nat): Meta
    requires limit > 0
  {
    var n := PagesForLimit(count, limit);
    Meta(n, page < n)
  }

  /** With the requested page size, `hasNextPage` holds exactly when the
      next page of the ordered result is non-empty. */
  lemma CorrectedNextPageMeansMoreItems<T>(ordered: seq<T>, page: int, limit: nat)
    requires limit > 0 && page >= 1
    ensures PageOf(ordered, page + 1, limit).Some?
    ensures MetadataForLimit(|ordered|, page, limit).hasNextPage <==>
      |PageOf(ordered, page + 1, limit).value| > 0
  {
    var c := |ordered|;
    var n := PagesForLimit(c, limit);
    assert Offset(page + 1, limit) == page * limit;
    assert page * limit >= 0 by { MulNonNeg(page, limit); }
    if page < n {
      MulMono(page, n - 1, limit);
      assert page * limit <= (n - 1) * limit < c;
    } else {
      MulMono(n, page, limit);
      assert page * limit >= n * limit >= c;
    }
  }

  /** At the default page size the written metadata is already right: the
      two definitions differ only for other limits. */
  lemma CorrectedAgreesAtDefaultLimit(count: nat, page: int)
    ensures MetadataForLimit(count, page, ITEMS_PER_PAGE) == Metadata(count, page)
  {
  }

  lemma MulNonNeg(a: int, b: int)
    requires a >= 0 && b >= 0
    ensures a * b >= 0
  {
  }

  lemma MulMono(a: int, b: int, k: nat)
    requires a <= b
    ensures a * k <= b * k
  {
    assert b * k - a * k == (b - a) * k;
    MulNonNeg(b - a, k);
  }
}

=== FILE: onboarding.dfy ===
/** The onboarding workflow: a welcome email, then every thirty days an
    email chosen by how long ago the user was last active. */
module Onboarding {
  import opened Outcomes
  import Seqs
  import opened Schema
  import opened Workflow

  datatype UserState = NonActive | Active

  const ONE_DAY_MS: int := DAY_MS
  const THREE_DAYS_MS: int := 3 * ONE_DAY_MS
  const THIRTY_DAYS_MS: int := 30 * ONE_DAY_MS

  /** The sleeps of the workflow, in seconds. */
  const FIRST_WAIT_SECONDS: nat := 60 * 60 * 24 * 3
  const MONTH_WAIT_SECONDS: nat := 60 * 60 * 24 * 30

  /** `new Date(lastActivityDate).getTime()`: midnight UTC of the stored day,
      or the epoch when the column is null. */
  function LastActivityMillis(u: User): Millis {
    match u.lastActivityDate
    case None => 0
    case Some(d) => StartOfDay(d)
  }

  /** The classification of the time since last activity: more than three
      and at most thirty days is "non-active"; anything else, including a
      negative difference and more than thirty days, is "active". */
  function StateForElapsed(elapsed: int): (st: UserState)
    ensures st == NonActive <==> THREE_DAYS_MS < elapsed <= THIRTY_DAYS_MS
  {
    if elapsed > THREE_DAYS_MS && elapsed <= THIRTY_DAYS_MS then NonActive else Active
  }

  /** `getUserState`: the first user with this email decides; no such user
      counts as non-active. */
  function GetUserState(users: seq<User>, email: string, now: Millis): (st: UserState)
    ensures !(exists u :: u in users && u.email == email) ==> st == NonActive
    ensures forall u :: Seqs.First(users, UserEmailIs(email)) == Some(u) ==>
      (st == NonActive <==> THREE_DAYS_MS < now - LastActivityMillis(u) <= THIRTY_DAYS_MS)
  {
    match Seqs.First(users, UserEmailIs(email))
    case None => NonActive
    case Some(u) => StateForElapsed(now - LastActivityMillis(u))
  }

  /** The three windows partition the time line, and the "non-active" one
      is not empty: four days without activity is non-active, one day and
      a year are both active. */
  lemma StateWindows()
    ensures THREE_DAYS_MS < THIRTY_DAYS_MS
    ensures StateForElapsed(4 * ONE_DAY_MS) == NonActive
    ensures StateForElapsed(ONE_DAY_MS) == Active
    ensures StateForElapsed(365 * ONE_DAY_MS) == Active
  {
  }

  /** A user whose last activity is today counts as active. */
  lemma ActiveToday(users: seq<User>, email: string, now: Millis, u: User)
    requires Seqs.First(users, UserEmailIs(email)) == Some(u)
    requires u.lastActivityDate == Some(DayOf(now))
    ensures GetUserState(users, email, now) == Active
  {
  }

  function WelcomeEmail(email: string): Email {
    Email(email, "Welcome to BookWise, Your Reading Companion!", Welcome)
  }

  /** The email one loop iteration sends for the state it read. */
  function StateEmail(email: string, st: UserState): (e: Email)
    ensures e.to == email
    ensures e.kind == (if st == NonActive then MissYou else StillActive)
  {
    match st
    case NonActive => Email(email, "Hmm, it's been a while", MissYou)
    case Active => Email(email, "Woah, you're still here!", StillActive)
  }

  /** One iteration sends exactly the email for the state it read. */
  lemma OneIterationEmails(email: string, st: UserState)
    ensures Emails([CheckState, Send(StateEmail(email, st)), Sleep(MONTH_WAIT_SECONDS)]) == [StateEmail(email, st)]
  {
    var e := StateEmail(email, st);
    assert Emails([CheckState]) == [] by { assert [CheckState][1..] == []; }
    assert Emails([Send(e)]) == [e] by { assert [Send(e)][1..] == []; }
    assert Emails([Sleep(MONTH_WAIT_SECONDS)]) == [] by { assert [Sleep(MONTH_WAIT_SECONDS)][1..] == []; }
    EmailsAppend([CheckState], [Send(e)]);
    EmailsAppend([CheckState] + [Send(e)], [Sleep(MONTH_WAIT_SECONDS)]);
    assert [CheckState, Send(e), Sleep(MONTH_WAIT_SECONDS)] == [CheckState] + [Send(e)] + [Sleep(MONTH_WAIT_SECONDS)];
  }

  /** The emails the iterations send, one per state read. */
  function StateEmails(email: string, states: seq<UserState>): (r: seq<Email>)
    ensures |r| == |states|
    ensures forall i :: 0 <= i < |states| ==> r[i] == StateEmail(email, states[i])
  {
    if states == [] then []
    else
      var r := [StateEmail(email, states[0])] + StateEmails(email, states[1..]);
      assert forall i :: 1 <= i < |states| ==> r[i] == StateEmails(email, states[1..])[i - 1];
      r
  }

  /** The loop iterations for the states read in turn. */
  function Iterations(email: string, states: seq<UserState>): (r: seq<Step>)
    ensures |r| == 3 * |states|
    ensures Emails(r) == StateEmails(email, states)
  {
    if states == [] then []
    else
      var head := [CheckState, Send(StateEmail(email, states[0])), Sleep(MONTH_WAIT_SECONDS)];
      var tail := Iterations(email, states[1..]);
      OneIterationEmails(email, states[0]);
      EmailsAppend(head, tail);
      assert |head + tail| == 3 + 3 * (|states| - 1);
      head + tail
  }

  /** Iteration `i` checks the state, sends the email for the state it
      read, then sleeps thirty days. */
  lemma {:induction false} IterationLayout(email: string, states: seq<UserState>, i: nat)
    requires i < |states|
    ensures var r := Iterations(email, states);
      r[3 * i] == CheckState && r[3 * i + 1] == Send(StateEmail(email, states[i]))
      && r[3 * i + 2] == Sleep(MONTH_WAIT_SECONDS)
  {
    if i > 0 {
      IterationLayout(email, states[1..], i - 1);
      var tail := Iterations(email, states[1..]);
      assert 3 * i == 3 + 3 * (i - 1);
      assert Iterations(email, states)[3..] == tail;
    }
  }

  /** The workflow for a new sign-up, up to the iterations that have run:
      the welcome email, a three-day sleep, then per iteration one state
      check, one email chosen by the state, and a thirty-day sleep. */
  function OnboardingSteps(email: string, states: seq<UserState>): (r: seq<Step>)
    ensures |r| == 2 + 3 * |states|
    ensures r[0] == Send(WelcomeEmail(email)) && r[1] == Sleep(FIRST_WAIT_SECONDS)
    ensures forall i :: 0 <= i < |r| && r[i] == CheckState ==> i >= 2
    ensures |Emails(r)| == 1 + |states|
    ensures Emails(r)[0] == WelcomeEmail(email)
    ensures forall i :: 0 <= i < |states| ==> Emails(r)[i + 1] == StateEmail(email, states[i])
  {
    var prefix := [Send(WelcomeEmail(email)), Sleep(FIRST_WAIT_SECONDS)];
    var loop := Iterations(email, states);
    EmailsAppend(prefix, loop);
    assert Emails(prefix) == [WelcomeEmail(email)] by {
      assert prefix[1..] == [Sleep(FIRST_WAIT_SECONDS)];
      assert Emails(prefix[1..]) == [] by {
        assert prefix[1..][1..] == [];
      }
    }
    prefix + loop
  }
}

=== FILE: outcomes.dfy ===
/** Success/failure values shared by every operation of the model. The source
    returns `{ success: true, data }` or `{ success: false, error }` objects and
    uses `null` for "no row"; these two datatypes stand for both shapes. */
module Outcomes {

  /** A value that may be absent: a nullable column, an optional parameter,
      a query that matched no row. */
  datatype Option<+T> = None | Some(value: T) {

    /** The value, or `default` when absent (JavaScript's `x || default`
        on a value that cannot be falsy otherwise). */
    function GetOr(default: T): T {
      match this
      case Some(v) => v
      case None => default
    }
  }

  /** The discriminated result of a server action. */
  datatype Result<+T, +E> = Ok(value: T) | Err(error: E)
}

=== FILE: return_book.dfy ===
/** The return-book workflow: decide whether a return was late and send the
    confirmation, followed an hour later by a late-fee notice when it was. */
module ReturnBook {
  import opened Outcomes
  import Seqs
  import opened Schema
  import opened Workflow

  /** The wait before the late-fee notice, in seconds. */
  const LATE_FEE_DELAY_SECONDS: nat := 60 * 60

  /** The return instant is strictly after the due instant; both dates are
      parsed the same way. */
  predicate IsLate(returnDate: Millis, dueDate: Millis) {
    returnDate > dueDate
  }

  /** `returnDate.diff(dueDate, "day")` when late, else 0: the number of
      whole days between the two instants. */
  function DaysLate(returnDate: Millis, dueDate: Millis): (n: nat)
    ensures !IsLate(returnDate, dueDate) ==> n == 0
    ensures IsLate(returnDate, dueDate) ==> n * DAY_MS <= returnDate - dueDate < n * DAY_MS + DAY_MS
  {
    if IsLate(returnDate, dueDate) then (returnDate - dueDate) / DAY_MS else 0
  }

  /** For two calendar dates, the days late are the days between them. */
  lemma DaysLateBetweenDates(returned: Day, due: Day)
    ensures DaysLate(StartOfDay(returned), StartOfDay(due)) == if returned > due then returned - due else 0
  {
    var n := DaysLate(StartOfDay(returned), StartOfDay(due));
    if returned > due {
      assert StartOfDay(returned) - StartOfDay(due) == (returned - due) * DAY_MS;
      assert n * DAY_MS <= (returned - due) * DAY_MS < (n + 1) * DAY_MS;
    } else {
      assert StartOfDay(returned) <= StartOfDay(due);
    }
  }

  /** The confirmation email: the late variant names the days late. */
  function Confirmation(email: string, title: string, returnDate: Millis, dueDate: Millis): Email {
    if IsLate(returnDate, dueDate) then
      Email(email, "Book \"" + title + "\" returned - Late return notice", ReturnedLate(DaysLate(returnDate, dueDate)))
    else
      Email(email, "Book \"" + title + "\" returned successfully!", ReturnedOnTime)
  }

  function LateFee(email: string, title: string, returnDate: Millis, dueDate: Millis): Email {
    Email(email, "Late fee notice for \"" + title + "\"", LateFeeNotice(DaysLate(returnDate, dueDate)))
  }

  /** The workflow's steps for one returned book, sent to the borrower's
      `email`. */
  function ReturnSteps(email: string, title: string, returnDate: Millis, dueDate: Millis): (r: seq<Step>)
    ensures |r| > 0 && r[0] == Send(Confirmation(email, title, returnDate, dueDate))
    ensures |Emails(r)| == if IsLate(returnDate, dueDate) then 2 else 1
    ensures forall e :: e in Emails(r) ==> e.to == email
    ensures forall e :: e in Emails(r) ==> (e.kind.LateFeeNotice? <==> e == LateFee(email, title, returnDate, dueDate))
    ensures IsLate(returnDate, dueDate) ==> r[1..] == [Sleep(LATE_FEE_DELAY_SECONDS), Send(LateFee(email, title, returnDate, dueDate))]
    ensures !IsLate(returnDate, dueDate) ==> r == [Send(Confirmation(email, title, returnDate, dueDate))]
    ensures (exists e :: e in Emails(r) && e.kind.LateFeeNotice?) <==> IsLate(returnDate, dueDate)
  {
    var confirm := [Send(Confirmation(email, title, returnDate, dueDate))];
    var rest := if IsLate(returnDate, dueDate)
                then [Sleep(LATE_FEE_DELAY_SECONDS), Send(LateFee(email, title, returnDate, dueDate))]
                else [];
    EmailsAppend(confirm, rest);
    assert Emails(confirm) == [Confirmation(email, title, returnDate, dueDate)];
    assert Emails(rest) == (if IsLate(returnDate, dueDate) then [LateFee(email, title, returnDate, dueDate)] else []) by {
      if IsLate(returnDate, dueDate) {
        assert rest[1..] == [Send(LateFee(email, title, returnDate, dueDate))];
      }
    }
    assert (confirm + rest)[1..] == rest;
    confirm + rest
  }

  /** The workflow run for a returned book: the book and the borrower are
      looked up by id first, and a missing row makes the handler throw
      before any step runs (`None`). Otherwise the steps are those for the
      borrower's stored email and the book's title. */
  function ReturnWorkflow(s: Store, userId: Uuid, bookId: Uuid, returnDate: Millis, dueDate: Millis): (r: Option<seq<Step>>)
    ensures r.None? <==> !HasUser(s.users, userId) || !HasBook(s.books, bookId)
    ensures r.Some? ==> |Emails(r.value)| == if IsLate(returnDate, dueDate) then 2 else 1
    ensures r.Some? ==> forall e :: e in Emails(r.value) ==> exists u :: u in s.users && u.id == userId && e.to == u.email
    ensures r.Some? ==> exists u, b ::
      (u in s.users && u.id == userId && b in s.books && b.id == bookId &&
       r.value == ReturnSteps(u.email, b.title, returnDate, dueDate))
  {
    match (Seqs.First(s.books, BookIdIs(bookId)), Seqs.First(s.users, UserIdIs(userId)))
    case (Some(book), Some(user)) => Some(ReturnSteps(user.email, book.title, returnDate, dueDate))
    case _ => None
  }

  /** The confirmation's variant follows the lateness decision. */
  lemma ConfirmationVariant(email: string, title: string, returnDate: Millis, dueDate: Millis)
    ensures Confirmation(email, title, returnDate, dueDate).kind.ReturnedLate? <==> IsLate(returnDate, dueDate)
    ensures Confirmation(email, title, returnDate, dueDate).kind.ReturnedOnTime? <==> !IsLate(returnDate, dueDate)
  {
  }
}

=== FILE: schema.dfy ===
/** The persisted data model: the three tables (users, books, borrow
    records), their enums, column defaults and uniqueness constraints.
    Tables are sequences of rows in insertion order; a `select ... limit 1`
    returns the first matching row. Timestamps are milliseconds since the
    epoch and date columns are UTC day numbers. */
module Schema {
  import opened Outcomes
  import Seqs

  type Uuid = string
  type Millis = int
  type Day = int

  const DAY_MS: int := 24 * 60 * 60 * 1000

  /** The UTC calendar day a timestamp falls on. */
  function DayOf(t: Millis): (d: Day)
    ensures d * DAY_MS <= t < d * DAY_MS + DAY_MS
  {
    t / DAY_MS
  }

  /** `new Date(dateColumn)`: a date column read back as a timestamp is
      midnight UTC of that day. */
  function StartOfDay(d: Day): Millis {
    d * DAY_MS
  }

  /** Account approval state; `PENDING` until an admin decides. */
  datatype AccountStatus = PENDING | APPROVED | REJECTED

  datatype Role = USER | ADMIN

  /** The persisted borrow status. There is no OVERDUE constructor: being
      overdue is derived when reading and is never stored. */
  datatype BorrowStatus = BORROWED | RETURNED

  /** A `users` row. `status`, `role` and `lastActivityDate` are nullable
      columns with defaults. */
  datatype User = User(
    id: Uuid,
    fullName: string,
    email: string,
    universityId: int,
    password: string,
    status: Option<AccountStatus>,
    role: Option<Role>,
    lastActivityDate: Option<Day>,
    createdAt: Millis)

  /** A `books` row, without its presentational columns. */
  datatype Book = Book(
    id: Uuid,
    title: string,
    author: string,
    genre: string,
    rating: int,
    totalCopies: int,
    availableCopies: int,
    createdAt: Millis)

  /** A `borrow_records` row. */
  datatype BorrowRecord = BorrowRecord(
    id: Uuid,
    userId: Uuid,
    bookId: Uuid,
    borrowDate: Millis,
    dueDate: Day,
    returnDate: Option<Day>,
    status: BorrowStatus,
    createdAt: Millis)

  /** The `library_settings` row. */
  datatype LibrarySettings = LibrarySettings(
    dailyFineRate: int,
    maxFineAmount: int,
    gracePeriodDays: int,
    autoCalculateEnabled: int)

  /** The database: one sequence of rows per table. */
  datatype Store = Store(users: seq<User>, books: seq<Book>, records: seq<BorrowRecord>)

  const DEFAULT_TOTAL_COPIES: int := 1
  const DEFAULT_AVAILABLE_COPIES: int := 0

  /** Column defaults of `library_settings`, in cents and days. */
  const DEFAULT_SETTINGS: LibrarySettings := LibrarySettings(100, 5000, 0, 1)

  /** `users.id == id`, the predicate of a lookup by primary key. */
  function UserIdIs(id: Uuid): User -> bool {
    (u: User) => u.id == id
  }

  /** `users.email == email`. */
  function UserEmailIs(email: string): User -> bool {
    (u: User) => u.email == email
  }

  /** `books.id == id`. */
  function BookIdIs(id: Uuid): Book -> bool {
    (b: Book) => b.id == id
  }

  /** `borrowRecords.userId == userId`. */
  function RecordOfUser(userId: Uuid): BorrowRecord -> bool {
    (r: BorrowRecord) => r.userId == userId
  }

  /** The key of `orderBy(desc(borrowRecords.borrowDate))`. */
  function ByBorrowDate(r: BorrowRecord): int {
    r.borrowDate
  }

  predicate HasUser(users: seq<User>, id: Uuid) {
    exists u :: u in users && u.id == id
  }

  predicate HasBook(books: seq<Book>, id: Uuid) {
    exists b :: b in books && b.id == id
  }

  /** The `unique()` constraints of the users table: id, email and
      universityId each identify at most one row. */
  predicate UniqueUserKeys(users: seq<User>) {
    forall i, j :: 0 <= i < j < |users| ==>
      && users[i].id != users[j].id
      && users[i].email != users[j].email
      && users[i].universityId != users[j].universityId
  }

  /** A row `u` that would violate a unique constraint of `users`. */
  predicate ClashesWith(users: seq<User>, u: User) {
    exists v :: v in users && (v.id == u.id || v.email == u.email || v.universityId == u.universityId)
  }

  /** The range of a Postgres `integer` column. */
  const INT4_MIN: int := -0x8000_0000
  const INT4_MAX: int := 0x7FFF_FFFF

  predicate IsInt4(x: int) {
    INT4_MIN <= x <= INT4_MAX
  }

  /** The sized columns of a users row hold their values: `full_name` is
      `varchar(255)` and `university_id` an `integer`. */
  predicate UserFits(u: User) {
    |u.fullName| <= 255 && IsInt4(u.universityId)
  }

  /** The sized columns of a books row hold their values: `title` and
      `author` are `varchar(255)`, and the rating and both copy counts are
      `integer`s. */
  predicate BookFits(b: Book) {
    |b.title| <= 255 && |b.author| <= 255 &&
    IsInt4(b.rating) && IsInt4(b.totalCopies) && IsInt4(b.availableCopies)
  }

  /** A new user row with the column defaults: status PENDING, role USER,
      last activity today, created now. */
  function NewUser(id: Uuid, fullName: string, email: string, universityId: int, password: string, now: Millis): (u: User)
    ensures u.status == Some(PENDING) && u.role == Some(USER)
    ensures u.lastActivityDate == Some(DayOf(now)) && u.createdAt == now
  {
    User(id, fullName, email, universityId, password, Some(PENDING), Some(USER), Some(DayOf(now)), now)
  }

  /** `insert into users`: refused when a value does not fit its column or
      a unique column clashes, otherwise the row is appended. The values
      are converted before the unique indexes are consulted. */
  function InsertUser(users: seq<User>, u: User): (r: Result<seq<User>, string>)
    ensures r.Err? <==> !UserFits(u) || ClashesWith(users, u)
    ensures r.Ok? ==> r.value == users + [u]
    ensures r.Ok? && UniqueUserKeys(users) ==> UniqueUserKeys(r.value)
  {
    if |u.fullName| > 255 then Err("value too long for type character varying(255)")
    else if !IsInt4(u.universityId) then Err("value out of range for type integer")
    else if ClashesWith(users, u) then Err("duplicate key value violates unique constraint")
    else Ok(users + [u])
  }

  /** A new borrow record with the column defaults: status BORROWED, no
      return date, borrowed and created now. */
  function NewBorrowRecord(id: Uuid, userId: Uuid, bookId: Uuid, now: Millis, dueDate: Day): (r: BorrowRecord)
    ensures r.status == BORROWED && r.returnDate.None?
    ensures r.borrowDate == now && r.createdAt == now
  {
    BorrowRecord(id, userId, bookId, now, dueDate, None, BORROWED, now)
  }

  /** The wire name of a stored borrow status. */
  function StatusName(s: BorrowStatus): string {
    match s
    case BORROWED => "BORROWED"
    case RETURNED => "RETURNED"
  }

  /** Whatever is stored, its name is "BORROWED" or "RETURNED", never "OVERDUE". */
  lemma StoredStatusNeverOverdue(s: BorrowStatus)
    ensures StatusName(s) == "BORROWED" || StatusName(s) == "RETURNED"
    ensures StatusName(s) != "OVERDUE"
  {
  }
}

=== FILE: search.dfy ===
/** The search box's debounced update of the `query` URL parameter
    (components/Search.tsx). */
module Search {
  import opened Outcomes
  import Seqs

  /** One name-value pair of a `URLSearchParams` list, in list order. */
  datatype Param = Param(name: string, value: string)

  const QUERY := "query"

  function NameIs(name: string): Param -> bool {
    (p: Param) => p.name == name
  }

  function NameIsNot(name: string): Param -> bool {
    (p: Param) => p.name != name
  }

  /** `params.get(name)`: the value of the first pair with that name. */
  function Get(ps: seq<Param>, name: string): (r: Option<string>)
    ensures r.None? <==> forall i :: 0 <= i < |ps| ==> ps[i].name != name
    ensures r.Some? ==> Param(name, r.value) in ps
    ensures r.Some? ==> exists i :: 0 <= i < |ps| && ps[i] == Param(name, r.value) && NoneNamedBefore(ps, name, i)
    decreases |ps|
  {
    if ps == [] then None
    else if ps[0].name == name then
      assert NoneNamedBefore(ps, name, 0);
      Some(ps[0].value)
    else
      var r := Get(ps[1..], name);
      assert r.Some? ==> exists i :: 0 <= i < |ps| && ps[i] == Param(name, r.value) && NoneNamedBefore(ps, name, i) by {
        if r.Some? {
          var i :| 0 <= i < |ps[1..]| && ps[1..][i] == Param(name, r.value) && NoneNamedBefore(ps[1..], name, i);
          assert ps[i + 1] == Param(name, r.value);
          assert NoneNamedBefore(ps, name, i + 1) by {
            forall j | 0 <= j < i + 1 ensures ps[j].name != name {
              if j > 0 {
                assert ps[j] == ps[1..][j - 1];
              }
            }
          }
        }
      }
      r
  }

  /** No pair before index `i` has the name. */
  predicate NoneNamedBefore(ps: seq<Param>, name: string, i: int) {
    forall j :: 0 <= j < i && j < |ps| ==> ps[j].name != name
  }

  /** The pairs whose name differs from `name`, in order. */
  function Without(ps: seq<Param>, name: string): (r: seq<Param>)
    ensures forall p :: p in r <==> p in ps && p.name != name
  {
    Seqs.Filter(ps, NameIsNot(name))
  }

  /** `params.set(name, value)` as the URL standard defines it: the first
      pair with that name takes the new value and the later ones are
      removed; with no such pair, a new one is appended. */
  function SetParam(ps: seq<Param>, name: string, value: string): (r: seq<Param>)
    ensures Get(r, name) == Some(value)
    ensures Without(r, name) == Without(ps, name)
    ensures Seqs.Filter(r, NameIs(name)) == [Param(name, value)]
    decreases |ps|
  {
    if ps == [] then
      var r := [Param(name, value)];
      assert r[1..] == [];
      r
    else if ps[0].name == name then
      var rest := Without(ps[1..], name);
      var r := [Param(name, value)] + rest;
      assert r[1..] == rest;
      Seqs.FilterIdempotent(ps[1..], NameIsNot(name));
      Seqs.FilterNone(rest, NameIs(name));
      r
    else
      var rest := SetParam(ps[1..], name, value);
      var r := [ps[0]] + rest;
      assert r[1..] == rest;
      r
  }

  /** `params.delete(name)`: every pair with that name goes. */
  function DeleteParam(ps: seq<Param>, name: string): (r: seq<Param>)
    ensures Get(r, name) == None
    ensures forall p :: p in r <==> p in ps && p.name != name
  {
    Without(ps, name)
  }

  /** Setting the same value twice is setting it once. */
  lemma {:induction false} SetParamIdempotent(ps: seq<Param>, name: string, value: string)
    ensures SetParam(SetParam(ps, name, value), name, value) == SetParam(ps, name, value)
    decreases |ps|
  {
    var r := SetParam(ps, name, value);
    if ps == [] {
      assert r == [Param(name, value)];
      assert r[1..] == [];
      Seqs.FilterNone([], NameIsNot(name));
    } else if ps[0].name == name {
      var rest := Without(ps[1..], name);
      assert r == [Param(name, value)] + rest;
      assert r[1..] == rest;
      Seqs.FilterIdempotent(ps[1..], NameIsNot(name));
    } else {
      SetParamIdempotent(ps[1..], name, value);
      assert r == [ps[0]] + SetParam(ps[1..], name, value);
      assert r[1..] == SetParam(ps[1..], name, value);
    }
  }

  /** Where the search box leaves the parameters, and whether it pushes
      the new URL. */
  datatype QueryUpdate = QueryUpdate(params: seq<Param>, navigate: bool)

  /** `updateQuery`: a non-empty search that differs from the initial one
      sets `query`; an empty search deletes it; the router is pushed only
      when the search differs from the initial one. */
  function UpdateQuery(ps: seq<Param>, search: string, initial: string): (u: QueryUpdate)
    ensures u.navigate <==> search != initial
    ensures search != "" && search != initial ==> Get(u.params, QUERY) == Some(search)
    ensures search == "" ==> Get(u.params, QUERY) == None
    ensures search != "" && search == initial ==> u.params == ps
    ensures Without(u.params, QUERY) == Without(ps, QUERY)
  {
    var params :=
      if search != "" && search != initial then SetParam(ps, QUERY, search)
      else if search == "" then DeleteParam(ps, QUERY)
      else ps;
    assert search == "" ==> Without(params, QUERY) == Without(ps, QUERY) by {
      Seqs.FilterIdempotent(ps, NameIsNot(QUERY));
    }
    QueryUpdate(params, search != initial)
  }

  /** `searchParams.get("query") || ""`: the text the box starts from. */
  function InitialSearch(ps: seq<Param>): string {
    match Get(ps, QUERY)
    case Some(v) => v
    case None => ""
  }

  /** After a navigation the page's initial search is the text that was
      typed, so the same text does not navigate again. */
  lemma NavigationSettles(ps: seq<Param>, search: string, initial: string)
    requires search != initial
    ensures InitialSearch(UpdateQuery(ps, search, initial).params) == search
    ensures !UpdateQuery(UpdateQuery(ps, search, initial).params, search, search).navigate
  {
  }
}

=== FILE: seqs.dfy ===
/** Sequence operations standing in for the SQL clauses the source uses:
    `where` (Filter), `count` (Count), `limit(1)` (First), `update ... where`
    (MapWhere), `order by` (SortDesc) and `limit/offset` (Window). */
module Seqs {
  import opened Outcomes

  /** The elements of `s` that satisfy `p`, in their original order. */
  function Filter<T(!new)>(s: seq<T>, p: T -> bool): (r: seq<T>)
    ensures |r| <= |s|
    ensures forall x :: x in r <==> x in s && p(x)
    ensures forall i :: 0 <= i < |r| ==> p(r[i])
  {
    if s == [] then []
    else if p(s[0]) then [s[0]] + Filter(s[1..], p)
    else Filter(s[1..], p)
  }

  lemma {:induction false} FilterAppend<T(!new)>(a: seq<T>, b: seq<T>, p: T -> bool)
    ensures Filter(a + b, p) == Filter(a, p) + Filter(b, p)
  {
    if a == [] {
      assert a + b == b;
    } else {
      assert (a + b)[0] == a[0];
      assert (a + b)[1..] == a[1..] + b;
      FilterAppend(a[1..], b, p);
    }
  }

  /** Filtering keeps exactly the multiset of satisfying elements. */
  lemma {:induction false} FilterMultiset<T(!new)>(s: seq<T>, p: T -> bool, x: T)
    ensures multiset(Filter(s, p))[x] == if p(x) then multiset(s)[x] else 0
  {
    if s != [] {
      FilterMultiset(s[1..], p, x);
      assert s == [s[0]] + s[1..];
    }
  }

  /** Two predicates that agree on every element of `s` filter it alike. */
  lemma {:induction false} FilterCongruent<T(!new)>(s: seq<T>, p: T -> bool, q: T -> bool)
    requires forall i :: 0 <= i < |s| ==> p(s[i]) == q(s[i])
    ensures Filter(s, p) == Filter(s, q)
  {
    if s != [] {
      FilterCongruent(s[1..], p, q);
    }
  }

  /** Nothing satisfies `p`, so nothing is kept. */
  lemma {:induction false} FilterNone<T(!new)>(s: seq<T>, p: T -> bool)
    requires forall x :: x in s ==> !p(x)
    ensures Filter(s, p) == []
  {
    if s != [] {
      FilterNone(s[1..], p);
    }
  }

  /** Everything satisfies `p`, so everything is kept. */
  lemma {:induction false} FilterAll<T(!new)>(s: seq<T>, p: T -> bool)
    requires forall x :: x in s ==> p(x)
    ensures Filter(s, p) == s
  {
    if s != [] {
      FilterAll(s[1..], p);
    }
  }

  /** Filtering twice by the same predicate is filtering once. */
  lemma FilterIdempotent<T(!new)>(s: seq<T>, p: T -> bool)
    ensures Filter(Filter(s, p), p) == Filter(s, p)
  {
    FilterAll(Filter(s, p), p);
  }

  /** SQL `count(*) ... where p`. */
  function Count<T(!new)>(s: seq<T>, p: T -> bool): nat {
    |Filter(s, p)|
  }

  lemma CountAppendOne<T(!new)>(s: seq<T>, x: T, p: T -> bool)
    ensures Count(s + [x], p) == Count(s, p) + (if p(x) then 1 else 0)
  {
    FilterAppend(s, [x], p);
  }

  /** The index of the first element satisfying `p`: the row a
      `select ... where p limit 1` returns. */
  function FindFirst<T>(s: seq<T>, p: T -> bool): (r: Option<nat>)
    ensures r.Some? ==> r.value < |s| && p(s[r.value])
    ensures r.Some? ==> forall j :: 0 <= j < r.value ==> !p(s[j])
    ensures r.None? ==> forall j :: 0 <= j < |s| ==> !p(s[j])
  {
    if s == [] then None
    else if p(s[0]) then Some(0)
    else match FindFirst(s[1..], p)
      case None => None
      case Some(i) => Some(i + 1)
  }

  /** Two sequences whose elements answer two tests alike, position by
      position, have their first hit at the same index. */
  lemma {:induction false} FindFirstAgree<T>(s: seq<T>, t: seq<T>, p: T -> bool, q: T -> bool)
    requires |s| == |t|
    requires forall j :: 0 <= j < |s| ==> p(s[j]) == q(t[j])
    ensures FindFirst(s, p) == FindFirst(t, q)
    decreases |s|
  {
    if s != [] {
      FindFirstAgree(s[1..], t[1..], p, q);
    }
  }

  /** The first element satisfying `p`, if any. */
  function First<T(!new)>(s: seq<T>, p: T -> bool): (r: Option<T>)
    ensures r.Some? <==> exists x :: x in s && p(x)
    ensures r.Some? ==> r.value in s && p(r.value)
  {
    match FindFirst(s, p)
    case None => None
    case Some(i) => Some(s[i])
  }

  /** SQL `update ... set f where p`: every satisfying element is rewritten,
      every other element is kept, and the order is unchanged. */
  function MapWhere<T>(s: seq<T>, p: T -> bool, f: T -> T): (r: seq<T>)
    ensures |r| == |s|
    ensures forall i :: 0 <= i < |s| ==> r[i] == if p(s[i]) then f(s[i]) else s[i]
  {
    seq(|s|, i requires 0 <= i < |s| => if p(s[i]) then f(s[i]) else s[i])
  }

  /** Rewriting the selected elements with an `f` that keeps them selected
      keeps as many selected as before. */
  lemma {:induction false} MapWhereCount<T(!new)>(s: seq<T>, p: T -> bool, f: T -> T)
    requires forall x :: p(x) ==> p(f(x))
    ensures Count(MapWhere(s, p, f), p) == Count(s, p)
  {
    if s != [] {
      var r := MapWhere(s, p, f);
      assert r == [r[0]] + MapWhere(s[1..], p, f);
      assert s == [s[0]] + s[1..];
      FilterAppend([r[0]], MapWhere(s[1..], p, f), p);
      FilterAppend([s[0]], s[1..], p);
      MapWhereCount(s[1..], p, f);
    }
  }

  /** `f` applied to every element, in order. */
  function Map<T, U>(s: seq<T>, f: T -> U): (r: seq<U>)
    ensures |r| == |s|
    ensures forall i :: 0 <= i < |s| ==> r[i] == f(s[i])
  {
    seq(|s|, i requires 0 <= i < |s| => f(s[i]))
  }

  /** Mapping distributes over concatenation. */
  lemma MapConcat<T, U>(a: seq<T>, b: seq<T>, f: T -> U)
    ensures Map(a + b, f) == Map(a, f) + Map(b, f)
  {
  }

  /** Taking out the element at `i` takes one copy of it out of the
      multiset. */
  lemma RemoveAt<T>(b: seq<T>, i: nat)
    requires i < |b|
    ensures multiset(b[..i] + b[i + 1..]) == multiset(b) - multiset{b[i]}
  {
    assert b == b[..i] + [b[i]] + b[i + 1..];
  }

  /** Matching the head of `a` with an equal element of `b` leaves tails
      that are again reorderings of each other. */
  lemma PermutationTail<T>(a: seq<T>, b: seq<T>, i: nat)
    requires multiset(a) == multiset(b) && a != [] && i < |b| && b[i] == a[0]
    ensures multiset(a[1..]) == multiset(b[..i] + b[i + 1..])
  {
    RemoveAt(b, i);
    DropHead(a);
  }

  lemma DropHead<T>(a: seq<T>)
    requires a != []
    ensures multiset(a[1..]) == multiset(a) - multiset{a[0]}
  {
    assert a == [a[0]] + a[1..];
  }

  /** Mapping a sequence with a head in front. */
  lemma MapCons<T, U>(x: T, rest: seq<T>, f: T -> U)
    ensures Map([x] + rest, f) == [f(x)] + Map(rest, f)
  {
  }

  /** The image of `b` is the image of `b` without its element at `i`,
      plus that element's image. */
  lemma MapRemoveAt<T, U>(b: seq<T>, i: nat, f: T -> U)
    requires i < |b|
    ensures multiset(Map(b, f)) == multiset(Map(b[..i] + b[i + 1..], f)) + multiset{f(b[i])}
    ensures i == 0 ==> b[..i] + b[i + 1..] == b[1..]
  {
    assert b == b[..i] + ([b[i]] + b[i + 1..]);
    MapConcat(b[..i], [b[i]] + b[i + 1..], f);
    MapConcat([b[i]], b[i + 1..], f);
    MapConcat(b[..i], b[i + 1..], f);
    assert Map([b[i]], f) == [f(b[i])];
  }

  /** Mapping a reordering of `a` gives a reordering of its image: the
      image multiset depends only on the multiset mapped. */
  lemma {:induction false} MapPermutation<T, U>(a: seq<T>, b: seq<T>, f: T -> U)
    requires multiset(a) == multiset(b)
    ensures multiset(Map(a, f)) == multiset(Map(b, f))
    decreases |a|
  {
    if a == [] {
      assert |b| == |multiset(b)| == 0;
    } else {
      assert a[0] in multiset(b);
      var i :| 0 <= i < |b| && b[i] == a[0];
      PermutationTail(a, b, i);
      MapPermutation(a[1..], b[..i] + b[i + 1..], f);
      MapRemoveAt(a, 0, f);
      MapRemoveAt(b, i, f);
    }
  }

  /** `s` is in non-increasing order of `key`. */
  predicate SortedDesc<T>(s: seq<T>, key: T -> int) {
    forall i, j :: 0 <= i < j < |s| ==> key(s[i]) >= key(s[j])
  }

  /** Putting an element no smaller than the head in front keeps the
      order. */
  lemma ConsSorted<T>(h: T, t: seq<T>, key: T -> int)
    requires SortedDesc(t, key)
    requires t == [] || key(h) >= key(t[0])
    ensures SortedDesc([h] + t, key)
  {
    var r := [h] + t;
    forall i, j | 0 <= i < j < |r|
      ensures key(r[i]) >= key(r[j])
    {
      assert r[j] == t[j - 1];
      if i == 0 {
        assert key(t[0]) >= key(t[j - 1]);
      } else {
        assert r[i] == t[i - 1];
      }
    }
  }

  function InsertDesc<T(!new)>(x: T, s: seq<T>, key: T -> int): (r: seq<T>)
    requires SortedDesc(s, key)
    ensures multiset(r) == multiset(s) + multiset{x}
    ensures |r| == |s| + 1
    ensures r[0] == x || (|s| > 0 && r[0] == s[0])
    ensures SortedDesc(r, key)
  {
    if s == [] then [x]
    else if key(x) >= key(s[0]) then
      ConsSorted(x, s, key);
      [x] + s
    else
      assert s == [s[0]] + s[1..];
      var rest := InsertDesc(x, s[1..], key);
      assert |s| > 1 ==> key(s[0]) >= key(s[1]);
      ConsSorted(s[0], rest, key);
      [s[0]] + rest
  }

  /** A stable insertion sort putting the largest `key` first, as JavaScript's
      stable `Array.prototype.sort` does with a descending comparator. */
  function SortDesc<T(!new)>(s: seq<T>, key: T -> int): (r: seq<T>)
    ensures multiset(r) == multiset(s)
    ensures SortedDesc(r, key)
  {
    if s == [] then []
    else
      assert s == [s[0]] + s[1..];
      InsertDesc(s[0], SortDesc(s[1..], key), key)
  }

  /** Sorting keeps exactly the elements it was given. */
  lemma SortDescMembers<T(!new)>(s: seq<T>, key: T -> int)
    ensures forall x :: x in SortDesc(s, key) <==> x in s
  {
    var r := SortDesc(s, key);
    forall x ensures x in r <==> x in s {
      assert x in r <==> x in multiset(r);
      assert x in s <==> x in multiset(s);
    }
  }

  lemma SortDescLength<T(!new)>(s: seq<T>, key: T -> int)
    ensures |SortDesc(s, key)| == |s|
  {
    assert |multiset(SortDesc(s, key))| == |multiset(s)|;
  }

  /** The items `offset .. offset + limit` of `s` that exist: SQL
      `limit limit offset offset` on an already ordered result. */
  function Window<T>(s: seq<T>, offset: nat, limit: nat): (r: seq<T>)
    ensures |r| == if offset >= |s| then 0 else if |s| - offset < limit then |s| - offset else limit
    ensures forall i :: 0 <= i < |r| ==> offset + i < |s| && r[i] == s[offset + i]
  {
    if offset >= |s| then []
    else if |s| - offset < limit then s[offset..]
    else s[offset..offset + limit]
  }

  /** A window of a descending sequence is descending, and holds only
      elements of the sequence. */
  lemma WindowSortedDesc<T>(s: seq<T>, offset: nat, limit: nat, key: T -> int)
    requires SortedDesc(s, key)
    ensures SortedDesc(Window(s, offset, limit), key)
    ensures forall x :: x in Window(s, offset, limit) ==> x in s
  {
    var r := Window(s, offset, limit);
    forall i, j | 0 <= i < j < |r|
      ensures key(r[i]) >= key(r[j])
    {
      assert r[i] == s[offset + i] && r[j] == s[offset + j];
    }
    forall x | x in r
      ensures x in s
    {
      var i :| 0 <= i < |r| && r[i] == x;
      assert s[offset + i] == x;
    }
  }
}

=== FILE: sidebar.dfy ===
/** Which admin sidebar link is highlighted for the current pathname
    (components/admin/Sidebar.tsx). */
module Sidebar {
  import opened Text

  const ADMIN_HOME := "/admin"

  /** `isSelected`: the dashboard link only on an exact match; any other
      route longer than one character wherever it occurs in the pathname;
      every route on an exact match. */
  function IsSelected(route: string, pathname: string): (b: bool)
    ensures b <==> pathname == route || (route != ADMIN_HOME && |route| > 1 && exists k :: OccursAt(pathname, route, k))
  {
    assert Contains(pathname, route) <==> exists k :: OccursAt(pathname, route, k) by {
      if Contains(pathname, route) {
        OccursIfContains(pathname, route);
      }
      if k :| OccursAt(pathname, route, k) {
        ContainsAt(pathname, route, k);
      }
    }
    (route != ADMIN_HOME && Contains(pathname, route) && |route| > 1) || pathname == route
  }

  /** Being on a link's own route always highlights it. */
  lemma ExactMatchSelects(route: string)
    ensures IsSelected(route, route)
  {
  }

  /** The dashboard link is highlighted only on "/admin" itself, not on
      the pages below it. */
  lemma AdminHomeOnlyExact(pathname: string)
    ensures IsSelected(ADMIN_HOME, pathname) <==> pathname == ADMIN_HOME
  {
  }

  /** A route of at most one character (such as "/") is highlighted only on
      an exact match. */
  lemma ShortRouteOnlyExact(route: string, pathname: string)
    requires |route| <= 1
    ensures IsSelected(route, pathname) <==> pathname == route
  {
  }

  /** Any other route is highlighted wherever it occurs in the pathname:
      the test is containment, not a prefix test. */
  lemma OccurrenceSelects(route: string, pathname: string, k: nat)
    requires route != ADMIN_HOME && |route| > 1
    requires k + |route| <= |pathname| && pathname[k..k + |route|] == route
    ensures IsSelected(route, pathname)
  {
    ContainsAt(pathname, route, k);
  }

  /** For instance "/admin/books" is highlighted on
      "/admin/users/admin/books", which it does not prefix. */
  lemma NotAPrefixTest()
    ensures IsSelected("/admin/books", "/admin/users/admin/books")
    ensures !StartsWith("/admin/users/admin/books", "/admin/books")
  {
    var p := "/admin/users/admin/books";
    assert p[12..24] == "/admin/books";
    OccurrenceSelects("/admin/books", p, 12);
    assert p[7] != "/admin/books"[7];
  }
}

=== FILE: text.dfy ===
/** String helpers for the JavaScript string methods the source calls:
    `toLowerCase`/`toUpperCase` (ASCII letters only), `includes`, SQL
    `ilike '%q%'`, and `split` on a single separator character. */
module Text {

  predicate IsLowerAscii(c: char) { 'a' <= c <= 'z' }
  predicate IsUpperAscii(c: char) { 'A' <= c <= 'Z' }

  function LowerChar(c: char): (d: char)
    ensures !IsUpperAscii(d)
    ensures IsUpperAscii(c) ==> IsLowerAscii(d)
    ensures !IsUpperAscii(c) ==> d == c
  {
    if IsUpperAscii(c) then (c as int + 32) as char else c
  }

  function UpperChar(c: char): (d: char)
    ensures !IsLowerAscii(d)
    ensures IsLowerAscii(c) ==> IsUpperAscii(d)
    ensures !IsLowerAscii(c) ==> d == c
  {
    if IsLowerAscii(c) then (c as int - 32) as char else c
  }

  /** `s.toLowerCase()` on ASCII letters. */
  function ToLower(s: string): (r: string)
    ensures |r| == |s|
    ensures forall i :: 0 <= i < |s| ==> r[i] == LowerChar(s[i])
  {
    seq(|s|, i requires 0 <= i < |s| => LowerChar(s[i]))
  }

  /** `s.toUpperCase()` on ASCII letters. */
  function ToUpper(s: string): (r: string)
    ensures |r| == |s|
    ensures forall i :: 0 <= i < |s| ==> r[i] == UpperChar(s[i])
  {
    seq(|s|, i requires 0 <= i < |s| => UpperChar(s[i]))
  }

  predicate StartsWith(s: string, prefix: string) {
    |prefix| <= |s| && s[..|prefix|] == prefix
  }

  /** `hay.includes(needle)`. */
  predicate Contains(hay: string, needle: string)
    decreases |hay|
  {
    StartsWith(hay, needle) || (|hay| > 0 && Contains(hay[1..], needle))
  }

  /** `needle` occurs in `hay` at some position. */
  lemma {:induction false} ContainsAt(hay: string, needle: string, k: nat)
    requires k + |needle| <= |hay| && hay[k..k + |needle|] == needle
    ensures Contains(hay, needle)
  {
    if k > 0 {
      assert hay[1..][k - 1..k - 1 + |needle|] == hay[k..k + |needle|];
      ContainsAt(hay[1..], needle, k - 1);
    }
  }

  /** `needle` occurs in `hay` starting at index `k`. */
  predicate OccursAt(hay: string, needle: string, k: int) {
    0 <= k && k + |needle| <= |hay| && hay[k..k + |needle|] == needle
  }

  /** Containment finds an occurrence: the converse of `ContainsAt`. */
  lemma {:induction false} OccursIfContains(hay: string, needle: string)
    requires Contains(hay, needle)
    ensures exists k :: OccursAt(hay, needle, k)
    decreases |hay|
  {
    if StartsWith(hay, needle) {
      assert OccursAt(hay, needle, 0);
    } else {
      OccursIfContains(hay[1..], needle);
      var k :| OccursAt(hay[1..], needle, k);
      assert hay[1..][k..k + |needle|] == hay[k + 1..k + 1 + |needle|];
      assert OccursAt(hay, needle, k + 1);
    }
  }

  /** Every string contains itself, so an exact match is also a containment. */
  lemma ContainsSelf(s: string)
    ensures Contains(s, s)
  {
    ContainsAt(s, s, 0);
  }

  /** SQL `column ilike '%needle%'`, with case folded on ASCII letters. */
  predicate ContainsIgnoreCase(hay: string, needle: string) {
    Contains(ToLower(hay), ToLower(needle))
  }

  /** `s.split(sep)` for a one-character separator: the pieces between
      separators, including the empty pieces that leading, trailing or
      repeated separators produce. */
  function Split(s: string, sep: char): (r: seq<string>)
    ensures |r| >= 1
    ensures forall i :: 0 <= i < |r| ==> sep !in r[i]
    decreases |s|
  {
    if s == [] then [""]
    else
      var rest := Split(s[1..], sep);
      if s[0] == sep then [""] + rest
      else [[s[0]] + rest[0]] + rest[1..]
  }

  /** `pieces.join(sep)`. */
  function Join(pieces: seq<string>, sep: char): string
    decreases |pieces|
  {
    if pieces == [] then ""
    else if |pieces| == 1 then pieces[0]
    else pieces[0] + [sep] + Join(pieces[1..], sep)
  }

  /** Splitting and joining again on the same separator gives back the
      original string: no character is lost or invented by `Split`. */
  lemma {:induction false} SplitJoin(s: string, sep: char)
    ensures Join(Split(s, sep), sep) == s
    decreases |s|
  {
    if s != [] {
      var rest := Split(s[1..], sep);
      SplitJoin(s[1..], sep);
      if s[0] == sep {
        assert ([""] + rest)[1..] == rest;
        assert s == [s[0]] + s[1..];
      } else {
        var r := [[s[0]] + rest[0]] + rest[1..];
        assert r[1..] == rest[1..];
        if |rest| == 1 {
          assert s == [s[0]] + s[1..];
        } else {
          assert Join(rest, sep) == rest[0] + [sep] + Join(rest[1..], sep);
          assert s == [s[0]] + s[1..];
        }
      }
    }
  }
}

=== FILE: user_info_display.dfy ===
/** The admin's user detail card: the borrowed and overdue counters over
    the borrowing history, and the role toggle with its client-side guards
    (components/UserInfoDisplay.tsx). */
module UserInfoDisplay {
  import opened Outcomes
  import opened Schema
  import opened Text
  import opened ClientReplies
  import Seqs
  import Auth
  import AdminUser
  import BorrowRecordsPage

  // ---------------------------------------------------------------------
  // Borrowing counters
  // ---------------------------------------------------------------------

  /** A history row as the component receives it: the status is the text
      of the stored column. */
  datatype HistoryRow = HistoryRow(
    id: Uuid,
    book: Option<Book>,
    borrowDate: Millis,
    dueDate: Day,
    returnDate: Option<Day>,
    status: string)

  function RowOf(e: AdminUser.HistoryEntry): HistoryRow {
    HistoryRow(e.id, e.book, e.borrowDate, e.dueDate, e.returnDate, StatusName(e.status))
  }

  /** The rows the detail page hands to the component for a history. */
  function Rows(history: seq<AdminUser.HistoryEntry>): (r: seq<HistoryRow>)
    ensures |r| == |history|
    ensures forall i :: 0 <= i < |history| ==> r[i] == RowOf(history[i])
  {
    seq(|history|, i requires 0 <= i < |history| => RowOf(history[i]))
  }

  predicate IsCurrentlyBorrowed(r: HistoryRow) {
    r.status == "BORROWED" || r.status == "OVERDUE"
  }

  predicate IsOverdue(r: HistoryRow) {
    r.status == "OVERDUE"
  }

  /** `currentlyBorrowedBooks`: the rows whose status text is BORROWED or
      OVERDUE, in history order. */
  function CurrentlyBorrowed(rows: seq<HistoryRow>): (r: seq<HistoryRow>)
    ensures |r| <= |rows|
    ensures forall x :: x in r <==> x in rows && (x.status == "BORROWED" || x.status == "OVERDUE")
    ensures forall x :: multiset(r)[x] == if x.status == "BORROWED" || x.status == "OVERDUE" then multiset(rows)[x] else 0
  {
    assert forall x :: (multiset(Seqs.Filter(rows, IsCurrentlyBorrowed))[x] ==
                        if IsCurrentlyBorrowed(x) then multiset(rows)[x] else 0) by {
      forall x {
        Seqs.FilterMultiset(rows, IsCurrentlyBorrowed, x);
      }
    }
    Seqs.Filter(rows, IsCurrentlyBorrowed)
  }

  /** `overdueBooks`: the rows whose status text is OVERDUE. */
  function OverdueBooks(rows: seq<HistoryRow>): (r: seq<HistoryRow>)
    ensures |r| <= |rows|
    ensures forall x :: x in r <==> x in rows && x.status == "OVERDUE"
    ensures forall x :: multiset(r)[x] == if x.status == "OVERDUE" then multiset(rows)[x] else 0
  {
    assert forall x :: multiset(Seqs.Filter(rows, IsOverdue))[x] == (if IsOverdue(x) then multiset(rows)[x] else 0) by {
      forall x {
        Seqs.FilterMultiset(rows, IsOverdue, x);
      }
    }
    Seqs.Filter(rows, IsOverdue)
  }

  /** Every overdue row is also counted as currently borrowed, so the
      "Overdue Books" counter never exceeds "Currently Borrowed". */
  lemma {:induction false} OverdueWithinCurrent(rows: seq<HistoryRow>)
    ensures forall x :: x in OverdueBooks(rows) ==> x in CurrentlyBorrowed(rows)
    ensures |OverdueBooks(rows)| <= |CurrentlyBorrowed(rows)|
    decreases |rows|
  {
    if rows != [] {
      OverdueWithinCurrent(rows[1..]);
    }
  }

  /** As written, the overdue counter reads the stored status, and the
      stored enum has no OVERDUE member: for every history the page can
      produce, the counter is empty, even when a loan is past its due day.
      The currently-borrowed counter is then exactly the BORROWED loans. */
  lemma StoredHistoryShowsNoOverdue(history: seq<AdminUser.HistoryEntry>, e: AdminUser.HistoryEntry, now: Millis)
    requires e in history && e.status == BORROWED && now > StartOfDay(e.dueDate)
    ensures OverdueBooks(Rows(history)) == []
    ensures RowOf(e) in CurrentlyBorrowed(Rows(history))
    ensures BorrowRecordsPage.Derive(e.status, e.dueDate, now) == BorrowRecordsPage.Overdue
  {
    var rows := Rows(history);
    forall x | x in rows
      ensures !IsOverdue(x)
    {
      var i :| 0 <= i < |rows| && rows[i] == x;
      StoredStatusNeverOverdue(history[i].status);
    }
    Seqs.FilterNone(rows, IsOverdue);
    var k :| 0 <= k < |history| && history[k] == e;
    assert rows[k] == RowOf(e);
  }

  /** The overdue loans as the borrow-records page derives them: loans
      still BORROWED whose due day has begun, judged at `now`. */
  predicate IsOverdueAt(now: Millis, e: AdminUser.HistoryEntry) {
    BorrowRecordsPage.Derive(e.status, e.dueDate, now) == BorrowRecordsPage.Overdue
  }

  function OverdueLoans(history: seq<AdminUser.HistoryEntry>, now: Millis): (r: seq<AdminUser.HistoryEntry>)
    ensures |r| <= |history|
    ensures forall e :: e in r <==> e in history && e.status == BORROWED && now > StartOfDay(e.dueDate)
    ensures forall e :: (multiset(r)[e] ==
                         if e.status == BORROWED && now > StartOfDay(e.dueDate) then multiset(history)[e] else 0)
  {
    var p := (e: AdminUser.HistoryEntry) => IsOverdueAt(now, e);
    assert forall e :: multiset(Seqs.Filter(history, p))[e] == (if p(e) then multiset(history)[e] else 0) by {
      forall e {
        Seqs.FilterMultiset(history, p, e);
      }
    }
    Seqs.Filter(history, p)
  }

  /** The derived overdue loans are a subset of the currently-borrowed
      rows, so the corrected counter keeps the counters' ordering, and a
      loan past its due day is counted. */
  lemma OverdueLoansAreCurrent(history: seq<AdminUser.HistoryEntry>, now: Millis)
    ensures forall e :: e in OverdueLoans(history, now) ==> RowOf(e) in CurrentlyBorrowed(Rows(history))
    ensures forall e :: e in history && e.status == BORROWED && now > StartOfDay(e.dueDate) ==> e in OverdueLoans(history, now)
  {
    var rows := Rows(history);
    forall e | e in OverdueLoans(history, now)
      ensures RowOf(e) in CurrentlyBorrowed(rows)
    {
      var k :| 0 <= k < |history| && history[k] == e;
      assert rows[k] == RowOf(e);
    }
  }

  // ---------------------------------------------------------------------
  // Role toggle
  // ---------------------------------------------------------------------

  /** `initialValue`: "ADMIN" for an admin, "USER" for anything else. */
  function InitialRoleItem(role: string): (r: string)
    ensures r == "ADMIN" <==> role == "ADMIN"
    ensures r == "USER" <==> role != "ADMIN"
  {
    if role == "ADMIN" then "ADMIN" else "USER"
  }

  /** The value the "Make User"/"Make Admin" button asks for. */
  function ToggleTarget(role: string): (r: string)
    ensures r == "USER" || r == "ADMIN"
    ensures r != InitialRoleItem(role)
  {
    if role == "ADMIN" then "USER" else "ADMIN"
  }

  /** `session?.user?.role`. */
  function SessionRole(session: Option<Auth.Session>): Option<Role> {
    if session.Some? && session.value.user.Some? then session.value.user.value.role else None
  }

  /** The state a role request leaves behind: the role sent to the server,
      if any; the active item; and the toast shown. */
  datatype RoleClick = RoleClick(sent: Option<string>, activeItem: string, toast: Option<Toast>)

  /** What `handleRoleChange` receives from `changeUserRole`. A refusal
      carries the server's text in `error`; no failure sets `message`.
      `Threw` is a rejected promise. */
  datatype RoleReply = Changed | Refused(error: string) | RoleThrew

  /** The reply the client sees for an outcome of the server action. */
  function RoleReplyOf(o: AdminUser.RoleChangeOutcome): (r: RoleReply)
    ensures r == Changed <==> o.result.Ok?
    ensures o.result.Err? ==> r == Refused(AdminUser.RoleChangeMessage(o.result.error))
  {
    match o.result
    case Ok(_) => Changed
    case Err(e) => Refused(AdminUser.RoleChangeMessage(e))
  }

  const ROLE_FAILED := "Failed to change user role."

  /** `handleRoleChange(value)` given the reply of `changeUserRole`, which
      is consulted only when the request is sent. On a refusal the toast
      reads `result.message`, which a refusal never carries, so the
      fallback text is always shown. */
  function HandleRoleChange(activeItem: string, value: string, session: Option<Auth.Session>, reply: RoleReply): (r: RoleClick)
    ensures value == activeItem ==> r == RoleClick(None, activeItem, None)
    ensures r.sent.Some? <==> value != activeItem && SessionRole(session) == Some(ADMIN)
    ensures r.sent.Some? ==> r.sent.value == ToUpper(value)
    ensures value != activeItem && SessionRole(session) != Some(ADMIN) ==>
      r.activeItem == activeItem && r.toast.Some? && r.toast.value.title == "Permission Denied"
    ensures r.activeItem != activeItem ==> r.sent.Some? && reply == Changed && r.activeItem == value
    ensures r.sent.Some? && reply == Changed ==> r.activeItem == value && r.toast.Some? && !r.toast.value.destructive
    ensures r.sent.Some? && reply != Changed ==> r.activeItem == activeItem && r.toast.Some? && r.toast.value.destructive
    ensures r.sent.Some? && reply.Refused? ==> r.toast.value.description == ROLE_FAILED
  {
    if value == activeItem then RoleClick(None, activeItem, None)
    else if SessionRole(session) != Some(ADMIN) then
      RoleClick(None, activeItem, Some(Toast("Permission Denied", "You do not have permission to change user roles.", true)))
    else
      var sent := Some(ToUpper(value));
      match reply
      case Changed => RoleClick(sent, value, Some(Toast("Role Changed", "Role has been changed to " + value + ".", false)))
      case Refused(_) => RoleClick(sent, activeItem, Some(Toast("Error", MessageOr(None, ROLE_FAILED), true)))
      case RoleThrew => RoleClick(sent, activeItem, Some(Toast("Error", "An unexpected error occurred while changing the role.", true)))
  }

  /** Whatever the server refuses for, the admin reads only the generic
      text: a missing target user is never reported as such. */
  lemma RoleErrorNeverShown(activeItem: string, value: string, session: Option<Auth.Session>,
                            s: Store, sessionUserId: Option<Uuid>, userId: Uuid, newRole: Role)
    requires value != activeItem && SessionRole(session) == Some(ADMIN)
    ensures var o := AdminUser.ChangeUserRole(s, sessionUserId, userId, newRole);
      var r := HandleRoleChange(activeItem, value, session, RoleReplyOf(o));
      o.result.Err? ==> r.toast.Some? && r.toast.value.description != AdminUser.RoleChangeMessage(o.result.error)
  {
    var o := AdminUser.ChangeUserRole(s, sessionUserId, userId, newRole);
    if o.result.Err? {
      var r := HandleRoleChange(activeItem, value, session, RoleReplyOf(o));
      assert r.toast.value.description == ROLE_FAILED;
      match o.result.error
      case AuthenticationRequired =>
        assert |ROLE_FAILED| != |AdminUser.RoleChangeMessage(AdminUser.AuthenticationRequired)|;
      case NotAdmin =>
        assert |ROLE_FAILED| != |AdminUser.RoleChangeMessage(AdminUser.NotAdmin)|;
      case OwnRole =>
        assert |ROLE_FAILED| != |AdminUser.RoleChangeMessage(AdminUser.OwnRole)|;
      case UserNotFound =>
        assert |ROLE_FAILED| != |AdminUser.RoleChangeMessage(AdminUser.UserNotFound)|;
    }
  }

  /** The handler as evidently intended: a refusal shows the server's
      `error` text, falling back to the generic text only when it is
      empty. Everything else is as in `HandleRoleChange`. */
  function HandleRoleChangeShowingError(activeItem: string, value: string, session: Option<Auth.Session>, reply: RoleReply): (r: RoleClick)
    ensures r.sent.Some? && reply.Refused? && reply.error != "" ==> r.toast.Some? && r.toast.value.description == reply.error
    ensures r.sent == HandleRoleChange(activeItem, value, session, reply).sent
    ensures r.activeItem == HandleRoleChange(activeItem, value, session, reply).activeItem
    ensures !(r.sent.Some? && reply.Refused?) ==> r == HandleRoleChange(activeItem, value, session, reply)
    ensures r.toast.Some? <==> HandleRoleChange(activeItem, value, session, reply).toast.Some?
    ensures r.toast.Some? ==>
      (r.toast.value.title == HandleRoleChange(activeItem, value, session, reply).toast.value.title &&
       r.toast.value.destructive == HandleRoleChange(activeItem, value, session, reply).toast.value.destructive)
  {
    var written := HandleRoleChange(activeItem, value, session, reply);
    if written.sent.Some? && reply.Refused? then
      written.(toast := Some(Toast("Error", MessageOr(Some(reply.error), ROLE_FAILED), true)))
    else written
  }

  /** With the correction, every refusal of the server action reaches the
      admin with its own text. */
  lemma CorrectedRoleErrorShown(activeItem: string, value: string, session: Option<Auth.Session>,
                                s: Store, sessionUserId: Option<Uuid>, userId: Uuid, newRole: Role)
    requires value != activeItem && SessionRole(session) == Some(ADMIN)
    ensures var o := AdminUser.ChangeUserRole(s, sessionUserId, userId, newRole);
      var r := HandleRoleChangeShowingError(activeItem, value, session, RoleReplyOf(o));
      o.result.Err? ==> r.toast.Some? && r.toast.value.description == AdminUser.RoleChangeMessage(o.result.error)
  {
    var o := AdminUser.ChangeUserRole(s, sessionUserId, userId, newRole);
    if o.result.Err? {
      assert AdminUser.RoleChangeMessage(o.result.error) != "" by {
        match o.result.error
        case AuthenticationRequired =>
        case NotAdmin =>
        case OwnRole =>
        case UserNotFound =>
      }
    }
  }

  lemma UpperRoleNames()
    ensures ToUpper("USER") == "USER" && ToUpper("ADMIN") == "ADMIN"
  {
    assert ToUpper("USER") == "USER" by {
      forall i | 0 <= i < 4 ensures ToUpper("USER")[i] == "USER"[i] { }
    }
    assert ToUpper("ADMIN") == "ADMIN" by {
      forall i | 0 <= i < 5 ensures ToUpper("ADMIN")[i] == "ADMIN"[i] { }
    }
  }

  /** An admin pressing the toggle on a freshly loaded card asks the server
      for the other role, spelled as the stored enum spells it. */
  lemma ToggleRequestsOtherRole(role: Role, session: Option<Auth.Session>, reply: RoleReply)
    requires SessionRole(session) == Some(ADMIN)
    ensures var shown := AdminUser.RoleName(role);
      var r := HandleRoleChange(InitialRoleItem(shown), ToggleTarget(shown), session, reply);
      r.sent.Some? && r.sent.value != shown &&
      (r.sent.value == "USER" || r.sent.value == "ADMIN")
  {
    UpperRoleNames();
  }

  /** If the page is not re-rendered after a successful toggle, the button
      still reads the role the page was loaded with, so it asks for the
      same value again; that value is now the active item and the second
      press does nothing. */
  lemma SecondToggleIgnored(role: string, session: Option<Auth.Session>, reply: RoleReply, reply2: RoleReply)
    requires SessionRole(session) == Some(ADMIN)
    ensures var first := HandleRoleChange(InitialRoleItem(role), ToggleTarget(role), session, Changed);
      first.sent.Some? &&
      HandleRoleChange(first.activeItem, ToggleTarget(role), session, reply2) == RoleClick(None, first.activeItem, None)
  {
  }

  /** If the page is re-rendered after a successful toggle, the `user.role`
      prop is the role the server stored, whose name is the value sent. The
      active item survives the re-render, so the button now asks for the
      role the page was first loaded with, and the second press sends it. */
  lemma RefreshedToggleSendsAgain(role: Role, stored: Role, session: Option<Auth.Session>, reply2: RoleReply)
    requires SessionRole(session) == Some(ADMIN)
    ensures var shown := AdminUser.RoleName(role);
      var first := HandleRoleChange(InitialRoleItem(shown), ToggleTarget(shown), session, Changed);
      first.sent.Some? &&
      (AdminUser.RoleName(stored) == first.sent.value ==>
        var second := HandleRoleChange(first.activeItem, ToggleTarget(AdminUser.RoleName(stored)), session, reply2);
        second.sent == Some(shown) &&
        second.activeItem == (if reply2 == Changed then shown else first.activeItem))
  {
    UpperRoleNames();
  }
}

=== FILE: utils.dfy ===
/** `getInitials`: the upper-cased first letters of the first two words of a
    name. */
module Utils {
  import opened Text

  /** The first character of a word, or nothing for an empty word
      (`part[0]` is undefined there and `join` prints it as ""). */
  function Head(word: string): string {
    if word == [] then [] else [word[0]]
  }

  /** `words.map(part => part[0]).join("")`. */
  function Heads(words: seq<string>): string
    decreases |words|
  {
    if words == [] then [] else Head(words[0]) + Heads(words[1..])
  }

  /** `s.slice(0, n)`. */
  function Prefix(s: string, n: nat): string {
    if |s| <= n then s else s[..n]
  }

  /** `getInitials(name)`. */
  function GetInitials(name: string): (r: string)
    ensures |r| <= 2
    ensures forall i :: 0 <= i < |r| ==> !IsLowerAscii(r[i])
    ensures name == "" ==> r == ""
  {
    assert name == "" ==> Heads(Split(name, ' ')) == Head("") + Heads([]);
    Prefix(ToUpper(Heads(Split(name, ' '))), 2)
  }

  /** The characters that start a word: non-space characters at the start
      of `s` (when `afterSpace`) or right after a space. An independent
      definition that never builds the list of words. */
  function WordStarts(s: string, afterSpace: bool): string
    decreases |s|
  {
    if s == [] then []
    else (if s[0] != ' ' && afterSpace then [s[0]] else []) + WordStarts(s[1..], s[0] == ' ')
  }

  /** Taking the first character of every piece of `split(" ")` picks
      exactly the word-start characters: the empty pieces that leading,
      trailing or repeated spaces produce contribute nothing. */
  lemma {:induction false} HeadsAreWordStarts(s: string)
    ensures Heads(Split(s, ' ')) == WordStarts(s, true)
    ensures Heads(Split(s, ' ')[1..]) == WordStarts(s, false)
    decreases |s|
  {
    if s == [] {
      assert Split(s, ' ') == [""];
      assert Heads([""]) == Head("") + Heads([]);
    } else {
      var rest := Split(s[1..], ' ');
      HeadsAreWordStarts(s[1..]);
      if s[0] == ' ' {
        var pieces := [""] + rest;
        assert Split(s, ' ') == pieces;
        assert pieces[1..] == rest;
        assert Heads(pieces) == Head("") + Heads(rest);
      } else {
        var pieces := [[s[0]] + rest[0]] + rest[1..];
        assert Split(s, ' ') == pieces;
        assert pieces[1..] == rest[1..];
        assert Heads(pieces) == [s[0]] + Heads(rest[1..]);
      }
    }
  }

  /** The initials are the first two word-start characters, upper-cased. */
  lemma InitialsOfWords(name: string)
    ensures GetInitials(name) == Prefix(ToUpper(WordStarts(name, true)), 2)
  {
    HeadsAreWordStarts(name);
  }

  /** No initial is a space. */
  lemma {:induction false} WordStartsHaveNoSpace(s: string, afterSpace: bool)
    ensures ' ' !in WordStarts(s, afterSpace)
    decreases |s|
  {
    if s != [] {
      WordStartsHaveNoSpace(s[1..], s[0] == ' ');
    }
  }

  lemma InitialsHaveNoSpace(name: string)
    ensures ' ' !in GetInitials(name)
  {
    InitialsOfWords(name);
    WordStartsHaveNoSpace(name, true);
    var w := WordStarts(name, true);
    assert forall i :: 0 <= i < |w| ==> ToUpper(w)[i] != ' ';
  }

  /** Worked cases: "a b" gives "AB", and the leading and doubled spaces of
      " a  b" are skipped, also giving "AB". */
  lemma InitialsExamples()
    ensures GetInitials("a b") == "AB"
    ensures GetInitials(" a  b") == "AB"
  {
    InitialsOfWords("a b");
    assert WordStarts("a b", true) == "ab" by {
      assert WordStarts("b", true) == "b";
      assert WordStarts(" b", false) == "b";
    }
    InitialsOfWords(" a  b");
    assert WordStarts(" a  b", true) == "ab" by {
      assert WordStarts("b", true) == "b";
      assert WordStarts(" b", true) == "b";
      assert WordStarts("  b", false) == "b";
      assert WordStarts("a  b", true) == "ab";
    }
  }
}

=== FILE: workflow.dfy ===
/** The steps a notification workflow performs, recorded in order: emails
    sent, durable sleeps and state checks. Delivery itself is outside the
    model. */
module Workflow {

  datatype EmailKind =
    | Welcome
    | MissYou
    | StillActive
    | ReturnedOnTime
    | ReturnedLate(daysLate: nat)
    | LateFeeNotice(daysLate: nat)

  datatype Email = Email(to: string, subject: string, kind: EmailKind)

  datatype Step = Send(email: Email) | Sleep(seconds: nat) | CheckState

  /** The emails among the steps, in order. */
  function Emails(steps: seq<Step>): (r: seq<Email>)
    ensures |r| <= |steps|
  {
    if steps == [] then []
    else (if steps[0].Send? then [steps[0].email] else []) + Emails(steps[1..])
  }

  lemma {:induction false} EmailsAppend(a: seq<Step>, b: seq<Step>)
    ensures Emails(a + b) == Emails(a) + Emails(b)
  {
    if a == [] {
      assert a + b == b;
    } else {
      var ab := a + b;
      assert ab[0] == a[0] && ab[1..] == a[1..] + b;
      EmailsAppend(a[1..], b);
      var h := if a[0].Send? then [a[0].email] else [];
      assert Emails(ab) == h + Emails(a[1..] + b);
      assert Emails(a) == h + Emails(a[1..]);
    }
  }
}
